=== FILE: README.md ===
# minio-backup, modelled in Dafny

`minio-backup` is a Go program. One run of it archives a local folder, uploads the archive to an S3-compatible bucket and prunes older backups under a retention count. It can also mail the operator a summary. All of the program's decision logic is in `main.go`. This project models that logic as pure functions:

- **Result log** (`ResultLog`). The append-only sequence of typed, timestamped messages, as `result.message` builds it.
- **Retention** (`Retention`):
  - the listing of prefixed objects, with failed entries filtered out;
  - `MaxBackups` pruning, which selects the oldest excess objects.
- **Notifier** (`Notifier`):
  - the gate of `result.email`, which decides whether a mail is sent;
  - the mail it sends, whose body is rendered per message and trimmed with `strings.Trim` and the cutset `"<br />"`.
- **The run** (`Backup`, with the properties in `RunFacts`). The body of `main` from the input checks to the exit, as a total function `Run(c, env)`:
  - `c` is the finished configuration (`Settings`).
  - `env` is an `Env` record holding the outcome of every external call: `os.Stat`, client creation, `MakeBucket`, `BucketExists`, the drained listing, each `RemoveObject`, the zip, `FPutObject`, `os.Remove`, `os.Hostname`, and the clock.
  - The result is a `Report`:
    - the final log;
    - the external calls in order;
    - whether the notifier was invoked, and the mail it produced;
    - how the process ends: `Exited(0)`, `Exited(1)` or `Panicked`.
- **Go library pieces** (`GoStrings`): `strings.TrimSpace`, `strings.Trim` with a cutset, `strings.ToUpper` on ASCII text, and `%d` formatting.
- **Concrete runs** (`Scenarios`): one configuration whose outcomes are varied one field at a time.

Behaviours of `main.go` the model keeps as written:

- **Bucket that does not exist.** At main.go:292 the inner `err` shadows the outer one. If `MakeBucket` fails and `BucketExists` answers `(false, nil)`, then `err.Error()` is called on a nil error. The run panics: it records nothing more, sends no mail and does not exit through `os.Exit(1)`. `Run` ends such a run with `Panicked`, and `BucketPanics` names the condition.
- **Blank fields.** A required field is blank when `strings.TrimSpace` leaves nothing of it, not only when it is empty.
- **Folder check.** Only an error for which `os.IsNotExist` holds stops the run. Any other `os.Stat` error is ignored (`FolderStat.StatFailed`).
- **Mail body.** Each message is rendered with `"<br />"` appended. The whole text is then trimmed with `"<br />"` as a cutset. So a last message ending in `<`, `b`, `r`, space, `/` or `>` loses those characters too. `Notifier.TrailingRTrimmed` shows this for a trailing `r`.
- **Cleanup after a successful upload.** Failing to remove the local archive is fatal even after the upload succeeded (main.go:351-354).
- **Deletions.** The objects deleted are an ordered prefix of the listing, not a set. They are deleted in listing order.
- **Retention over repeated runs.** Pruning happens before the upload. Take a bucket holding `n` backups under the prefix, two runs in which every delete succeeds, and nothing else added in between. With `maxBackups > 0`, `min(n + 1, maxBackups)` backups remain after the second run's pruning. With `maxBackups <= 0` (retention off) all `n + 1` remain. As a remark beyond the lemma: that run's own upload then adds one more, so with retention on the bucket holds `maxBackups + 1` once the limit is reached.

## Model

| member | source | states |
|---|---|---|
| ResultLog.Record | main.go:123-128 | the message goes at the end; the log grows by one; every earlier message stays where it was |
| ResultLog.HasKindAfterRecord | main.go:124-127 | after recording a message, a kind is present exactly when it was present before or is the new message's kind |
| Retention.ListingPartition | main.go:307-313 | every listed entry becomes either one object or one error, never both or neither; a listing without failed entries keeps all of them |
| Retention.ObjectsAppend | main.go:307-313 | the kept objects of a concatenated listing are those of each part, in order, so the filter keeps relative order |
| Retention.ErrorsAppend | main.go:308-310 | the failed entries' errors also keep listing order |
| Retention.SelectForDeletion | main.go:316-318 | nothing when `MaxBackups <= 0` or there are at most `MaxBackups` objects; otherwise exactly `n - MaxBackups` objects; always a prefix of the listing |
| Retention.Kept | main.go:316-318 | the listing is the deleted objects followed by the surviving ones |
| Retention.NewestSurvive | main.go:316-318 | with retention on, `min(n, MaxBackups)` objects survive and none of the last `MaxBackups` is selected; with it off, everything survives |
| Retention.PruneIdempotent | main.go:316-318 | pruning the survivors again selects nothing |
| Retention.RetentionConverges | main.go:316-342 | when every delete succeeds and only the first run's archive is added, `n` listed backups leave `min(n + 1, MaxBackups)` after the second run's pruning with `MaxBackups > 0`, and `n + 1` with retention off |
| GoStrings.TrimFunc | main.go:177 | the result is an infix of the input; everything cut off satisfies the predicate; neither end of the result does |
| GoStrings.TrimUnique | main.go:177 | at most one infix has those properties, so they determine the trim completely |
| GoStrings.Trim | main.go:177 | `strings.Trim`: every leading and trailing cutset character is removed, and the result neither starts nor ends with one |
| GoStrings.TrimAppendedCutset | main.go:175-177 | cutset characters appended to a string with clean ends are exactly what the trim removes |
| GoStrings.TrimSpace | main.go:255 | `strings.TrimSpace`: leading and trailing Unicode white space is removed, and the result neither starts nor ends with it |
| GoStrings.BlankIffAllSpace | main.go:255-273 | `len(strings.TrimSpace(s)) == 0` exactly when `s` is all white space |
| GoStrings.ToUpperAscii | main.go:175 | upper-casing keeps the length and maps each character through the ASCII upper-case mapping |
| GoStrings.FormatInt | main.go:348 | `%d` gives `-` exactly for negative numbers, then decimal digits only, with no leading zero except for `0` itself |
| GoStrings.FormatIntRoundTrip | main.go:348 | the printed size reads back as the number printed |
| Notifier.KindLabel | main.go:175 | the kind shown in the body is the upper-cased type string |
| Notifier.ScanFlags | main.go:151-161 | the loop's `hasError` ends true exactly when error notification is on and an `error` message is present; likewise `hasSuccess` for `success` |
| Notifier.ShouldSend | main.go:143-165 | a mail goes out exactly when relay, sender and recipient are set and an opted-in `success` or `error` message is present |
| Notifier.JoinedAppend | main.go:173-176 | rendering distributes over concatenation: one segment per message, in log order |
| Notifier.Body | main.go:177 | the body is the rendered text with cutset characters cut from both ends, and neither end is a cutset character |
| Notifier.TrailingRTrimmed | main.go:175-177 | for any log, when the last message's text ends in `r` after a non-cutset character, and the first timestamp does not start with a cutset character, the body is the joined log with that `r` and the trailing `<br />` cut off |
| Notifier.EmailFor | main.go:141-193 | a mail exactly when the gate opens, with the configured sender, recipient, relay, user name and password, the host name in the subject and the whole log as body |
| Notifier.NoSwitchesNoMail | main.go:151-165 | with both notification switches off nothing is sent, whatever the log holds |
| Notifier.InfoOnlyNoMail | main.go:151-165 | a log of `info` messages alone never causes a mail |
| Backup.BlankIsTrimSpaceEmpty | main.go:255 | the model's blank test agrees with `len(strings.TrimSpace(s)) == 0` |
| Backup.ValidationFailure | main.go:254-278 | the checks pass exactly when no required field is blank and the folder is not reported missing; a failure is `info` for a blank field and `error` for a missing folder, never `success` |
| Backup.Fatal | main.go:284-286 | a fatal step records one `error` message, hands the whole log to the notifier and exits 1 without further calls |
| Backup.RemovalsOfDeletes | main.go:319-320 | one delete call per selected object removes exactly their keys, in order |
| Backup.Connect | main.go:280-299 | the client is created with the configured endpoint, keys and SSL flag, then `MakeBucket(bucket, location)`, then `BucketExists(bucket)` only when creation failed; the run continues exactly when the client is created and the bucket is ready, with the log "Starting backup for <folder>", ["We already own <bucket>"], "Using bucket: <bucket>"; it panics exactly on the shadowed-`err` case and otherwise notifies and exits 1 with the client's or the existence check's error text as the last message |
| Backup.Start | main.go:254-299 | the run reaches listing exactly when the checks pass, the client is created and the bucket is ready; a failed check ends it with one message, no calls, no mail and code 1 |
| Backup.ListingMessages | main.go:305-313 | one `error` message per failed entry, with its text, in listing order, and nothing for objects |
| Backup.Prune | main.go:319-326 | delete `j` removes the `j`-th selected object and records one message: an `error` with the failure or a `success` naming the key |
| Backup.ListAndPrune | main.go:301-327 | the log grows by exactly the listing errors plus the selected objects, and earlier messages and calls are kept; the new calls are exactly one listing of the configured bucket under the backup prefix, then `RemoveObject(bucket, key)` for each selected object in order |
| Backup.PruneRemovals | main.go:315-327 | listing and pruning delete exactly the selected keys, in order, and every delete they add goes to the configured bucket |
| Backup.ListAndPruneMessages | main.go:305-327 | the listing errors come first, in listing order, then one message per delete, given by that delete's outcome alone |
| Backup.Cleanup | main.go:350-360 | the local archive is removed; on failure, an `error` and exit 1; otherwise "Successfully removed <name> from local storage" as `success` and exit 0; the notifier gets the final log either way |
| Backup.UploadArchive | main.go:341-360 | the new calls are exactly the upload under the archive name, then the removal of the local archive only when the upload succeeded; the run exits 0 exactly when upload and cleanup both succeed; a successful upload records "Successfully uploaded <name> of size <%d size>" as `success`; a failed upload appends one `error` message with its text, and every exit 1 ends on an `error` message |
| Backup.ZipStep | main.go:329-339 | the archive step records "Creating: /tmp/<name> which will contain the contents of: <folder>" as `info` and the zip call; it continues exactly when zipping succeeds, and otherwise notifies and exits 1 with the zip error as the last message |
| Backup.ArchiveAndUpload | main.go:329-360 | the new calls are exactly the zip, then the upload when the zip succeeded, then the local removal when the upload succeeded; exit 0 exactly when zip, upload and cleanup all succeed; the first new message is the "Creating: …" announcement; after a successful upload come the upload and the cleanup messages with their texts; a failed zip or upload leaves its error text as the second new message; every exit 1 ends on an `error` message; earlier log and calls are kept |
| Backup.ArchiveKeepsRemovals | main.go:329-360 | archiving, uploading and cleanup delete no remote object, so the deletes still all go to the configured bucket |
| Backup.Run | main.go:254-360 | the run ends in 0, 1 or a panic; 0 exactly when every fatal step succeeds; a panic exactly in the shadowed-`err` case; the notifier runs exactly on validated, non-panicking runs, with the final log; a validated run that exits 1 ends on an `error` message |
| RunFacts.ValidationOrder | main.go:254-278 | the checks run in the source's order; the first failing one gives the run's only message, and the run exits 1 without calls or mail |
| RunFacts.DeletesOldestExcess | main.go:315-327 | the run deletes nothing unless it reaches listing; nothing when retention is off or not exceeded; otherwise exactly the first `n - MaxBackups` listed objects, in order; every delete goes to the configured bucket |
| RunFacts.RunRemovals | main.go:301-327 | the keys a whole run deletes are the selected ones when listing is reached, and none otherwise; every delete goes to the configured bucket |
| RunFacts.ListingAndPruningMessages | main.go:280-327 | after the 2 or 3 start-up messages, the final log holds the listing errors in order, then each delete's outcome |
| RunFacts.UploadUsesArchiveName | main.go:329-345 | archive and upload both use `<prefix><time>.zip`, at `/tmp/` locally, as `application/zip` into the configured bucket; an upload happens exactly when listing is reached and the zip succeeds |
| RunFacts.PruneIgnoresOutcomes | main.go:319-326 | whatever the deletes answer, listing and pruning make the same calls and record as many messages |
| RunFacts.DeleteOutcomesDoNotMatter | main.go:319-360 | a failed delete never changes how the run ends, which calls it makes, or how long its log is |
| RunFacts.FatalStepRecordsItsError | main.go:280-360 | on a validated run, each failing step (client, existence check after a failed creation, zip, upload, cleanup) makes the run notify and exit 1 with that step's error text as the last `error` message |
| RunFacts.CleanupFailureIsFatal | main.go:341-354 | when the upload succeeds but cleanup fails, the run notifies and exits 1 with the archive uploaded; its last messages are the upload's success and the cleanup error |
| RunFacts.SuccessfulRun | main.go:347-360 | a clean run exits 0 after notifying once with the final log; its last two messages are successes |
| Scenarios.OldestOfThreeDeleted | main.go:315-327 | with three backups and `MaxBackups = 2`, only the oldest is deleted and the run exits 0 |
| Scenarios.FailedDeleteStillSucceeds | main.go:319-326 | with every delete failing, the run still exits 0 |
| Scenarios.MissingFolderStops | main.go:275-278 | a missing folder gives one `error` message and code 1, with no external call and no mail |
| Scenarios.CleanupFailureAfterUpload | main.go:341-354 | the archive is uploaded under its generated name, but failing to remove it locally still gives code 1 after a mail |
| Scenarios.MissingBucketPanics | main.go:288-298 | if bucket creation fails and the bucket is reported missing without an error, the run panics and sends nothing |

## Left out

- Configuration loading (main.go:53-89) and the flag layer (main.go:199-247) are left out; they are file and flag plumbing. `Settings.Defaults` is the value `newConfiguration` builds, and the model takes the finished configuration as input.
- Dialling the mail relay (main.go:185-190) is left out; its TLS setting and the printed send error have no effect on the run's outcome. `EmailFor` yields the mail handed to the relay.
- `os.Hostname` is an input (`Env.hostname`).
- `time.Now` is an input. Each message's timestamp is `Env.clock(i)`, where `i` is the message's log position. The archive's formatted time is `Env.archiveTime`.
- `log.Println` (main.go:125) is left out; it is write-only output.
- `os.Exit` (main.go:131-138) becomes the returned `Ending`. A panic is just `Panicked`: Go's exit code 2 and stack trace are not modelled.
- The `doneCh` channel and the lazy listing stream (main.go:302-307) are left out. The listing is the already-drained sequence `Env.listing`.
- The minio client, `archiver.Zip.Make` and `gomail` are left out; they are foreign code. Each call is a `Call` value carrying the arguments that matter, and its outcome comes from `Env`.
- Strings are sequences of Unicode scalar values. Invalid UTF-8 in configuration strings is not modelled.
- `GoStrings.ToUpperAscii` upper-cases ASCII letters only. The only text it is applied to is the three ASCII type names.
- Go's 64-bit `int` is modelled by unbounded integers. The `MaxBackups > 0` guard keeps `len(objects) - MaxBackups` far from overflow.
- The listed objects' size and modification time are carried but not used, since the source does not read them.
- TrailingRTrimmed: requires that the log's first timestamp not start with a cutset character. The source stamps messages with the layout `2006/01/02 15:04:05`, which starts with a digit, but the model takes the clock as a parameter, so the condition is stated rather than derived.
- Bucket state across runs is not modelled as a store. The object count after repeated runs is stated on listings by `Retention.RetentionConverges`.

=== FILE: backup.dfy ===
/** One backup run, the body of `main` in main.go from the input checks to
    the exit: a total function from the configuration and the outcomes of
    every external call to the log, the external calls made, the mail sent
    and the way the process ends. */
module Backup {
  import opened Optional
  import opened GoStrings
  import opened ResultLog
  import opened Settings
  import opened Retention
  import opened Notifier

  /** What `os.Stat` reports for the backup folder: only a "does not exist"
      error stops the run; any other error is ignored. */
  datatype FolderStat = Present | NotExist | StatFailed

  /** The outcome of `FPutObject`: bytes written, or the error text. */
  datatype Upload = Uploaded(size: int) | UploadFailed(err: string)

  /** The outcomes of everything outside the run's own logic. An error
      outcome carries the error's text. `removeErr(j)` is the outcome of the
      `j`-th delete, and `clock(i)` the formatted time stamped on the message
      that lands at position `i` of the log. */
  datatype Env = Env(
    folder: FolderStat,
    clientErr: Option<string>,
    makeBucketErr: Option<string>,
    bucketExists: bool,
    bucketExistsErr: Option<string>,
    listing: seq<ListItem>,
    removeErr: nat -> Option<string>,
    archiveTime: string,
    zipErr: Option<string>,
    upload: Upload,
    cleanupErr: Option<string>,
    hostname: Option<string>,
    clock: nat -> string)

  /** The external calls of a run, with the arguments that matter. */
  datatype Call =
    | NewClient(endpoint: string, accessKeyID: string, secretAccessKey: string, useSSL: bool)
    | MakeBucket(bucket: string, location: string)
    | BucketExists(bucket: string)
    | ListObjects(bucket: string, prefix: string)
    | RemoveObject(bucket: string, key: string)
    | MakeZip(path: string, folder: string)
    | PutObject(bucket: string, key: string, path: string, contentType: string)
    | RemoveFile(path: string)

  /** How the process ends: `os.Exit` with a code, or a runtime panic. */
  datatype Ending = Exited(code: int) | Panicked

  /** The observable result of a run: the final log, the external calls in
      order, whether `result.email` was invoked, the mail it sent, and the
      ending. */
  datatype Report = Report(log: Log, calls: seq<Call>, emailed: bool, mail: Option<Mail>, ending: Ending)

  /** The state carried between steps that do not end the run. */
  datatype Progress = Progress(log: Log, calls: seq<Call>)

  /** A step either hands its progress on or ends the run. */
  datatype Step = Continue(progress: Progress) | Stop(report: Report)

  /** `res.message(newResultMessage(kind, text))` with the clock's time. */
  function Note(log: Log, kind: Kind, text: string, clock: nat -> string): Log {
    Record(log, Message(kind, text, clock(|log|)))
  }

  /** The progress messages of a run, with the `fmt.Sprintf` arguments
      spliced in as the source does. */
  function StartingText(c: Config): string {
    "Starting backup for " + c.backupFolder
  }

  function AlreadyOwnText(c: Config): string {
    "We already own " + c.bucketName
  }

  function UsingText(c: Config): string {
    "Using bucket: " + c.bucketName
  }

  /** `len(strings.TrimSpace(s)) == 0`, in the equivalent form that
      `BlankIsTrimSpaceEmpty` establishes. */
  predicate Blank(s: string) {
    forall k :: 0 <= k < |s| ==> IsSpace(s[k])
  }

  /** A field counts as blank exactly when trimming white space leaves
      nothing of it. */
  lemma BlankIsTrimSpaceEmpty(s: string)
    ensures Blank(s) <==> |TrimSpace(s)| == 0
  {
    BlankIffAllSpace(s);
  }

  /** The input checks, in the source's order: the first blank required
      field gives an `info` message, and a folder that does not exist an
      `error` message. */
  function ValidationFailure(c: Config, folder: FolderStat): (r: Option<(Kind, string)>)
    ensures r.None? <==>
      && !Blank(c.endpoint) && !Blank(c.accessKeyID) && !Blank(c.secretAccessKey)
      && !Blank(c.bucketName) && !Blank(c.backupFolder) && folder != NotExist
    ensures r.Some? ==> (r.value.0 == Info <==>
      Blank(c.endpoint) || Blank(c.accessKeyID) || Blank(c.secretAccessKey)
      || Blank(c.bucketName) || Blank(c.backupFolder))
    ensures r.Some? ==> r.value.0 != Success
  {
    if Blank(c.endpoint) then Some((Info, "Please specify an endpoint: --endpoint=..."))
    else if Blank(c.accessKeyID) then Some((Info, "Please specify a access-key-id: --access-key-id=..."))
    else if Blank(c.secretAccessKey) then Some((Info, "Please specify a secret-access-key: --secret-access-key=..."))
    else if Blank(c.bucketName) then Some((Info, "Please specify a bucket-name: --bucket-name=..."))
    else if Blank(c.backupFolder) then Some((Info, "Please specify a backup-folder: --backup-folder=..."))
    else if folder == NotExist then Some((Error, "The folder " + c.backupFolder + " does not exist!"))
    else None
  }

  predicate Validated(c: Config, env: Env) {
    ValidationFailure(c, env.folder).None?
  }

  /** The bucket can be used: it was created, or it already exists. */
  predicate BucketReady(env: Env) {
    env.makeBucketErr.None? || (env.bucketExistsErr.None? && env.bucketExists)
  }

  /** Creation failed and the existence check answered "no" without an
      error, so the shadowed `err` is nil when its text is asked for. */
  predicate BucketPanics(env: Env) {
    env.makeBucketErr.Some? && env.bucketExistsErr.None? && !env.bucketExists
  }

  /** The run gets as far as listing the bucket. */
  predicate ReachesListing(c: Config, env: Env) {
    Validated(c, env) && env.clientErr.None? && BucketReady(env)
  }

  /** Archiving, uploading and removing the local archive all succeed. */
  predicate ArchiveSucceeds(env: Env) {
    env.zipErr.None? && env.upload.Uploaded? && env.cleanupErr.None?
  }

  /** `res.message(error).email().fatal()`: record the error, hand the whole
      log to the notifier, exit with code 1. */
  function Fatal(c: Config, env: Env, p: Progress, text: string): (r: Report)
    ensures r.log == Note(p.log, Error, text, env.clock) && r.calls == p.calls
    ensures r.emailed && r.mail == EmailFor(c, r.log, env.hostname)
    ensures r.ending == Exited(1)
  {
    var log := Note(p.log, Error, text, env.clock);
    Report(log, p.calls, true, EmailFor(c, log, env.hostname), Exited(1))
  }

  /** The keys of the objects deleted by a sequence of calls, in call order. */
  function Removals(calls: seq<Call>): seq<string> {
    if calls == [] then []
    else (if calls[0].RemoveObject? then [calls[0].key] else []) + Removals(calls[1..])
  }

  /** Every delete among `calls` goes to `bucket`. */
  predicate RemovesOnlyFrom(bucket: string, calls: seq<Call>) {
    forall k :: 0 <= k < |calls| && calls[k].RemoveObject? ==> calls[k].bucket == bucket
  }

  lemma {:induction false} RemovalsAppend(a: seq<Call>, b: seq<Call>)
    ensures Removals(a + b) == Removals(a) + Removals(b)
  {
    if a == [] {
      assert a + b == b;
    } else {
      assert (a + b)[0] == a[0];
      assert (a + b)[1..] == a[1..] + b;
      RemovalsAppend(a[1..], b);
    }
  }

  /** Appending calls none of which deletes a remote object leaves the
      deletions as they were. */
  lemma {:induction false} AppendNoRemovals(a: seq<Call>, tail: seq<Call>)
    requires forall k :: 0 <= k < |tail| ==> !tail[k].RemoveObject?
    ensures Removals(a + tail) == Removals(a)
    decreases |tail|
  {
    if tail == [] {
      assert a + tail == a;
    } else {
      AppendNoRemovals(a + [tail[0]], tail[1..]);
      assert a + tail == (a + [tail[0]]) + tail[1..];
      RemovalsAppend(a, [tail[0]]);
    }
  }

  /** The calls made before the bucket is listed. */
  predicate Preparatory(call: Call) {
    call.NewClient? || call.MakeBucket? || call.BucketExists?
  }

  /** Preparatory calls delete nothing. */
  lemma {:induction false} PreparatoryNoRemovals(calls: seq<Call>)
    requires forall k :: 0 <= k < |calls| ==> Preparatory(calls[k])
    ensures Removals(calls) == []
  {
    AppendNoRemovals([], calls);
    assert [] + calls == calls;
  }

  function Keys(objects: seq<ObjectInfo>): (r: seq<string>)
    ensures |r| == |objects|
    ensures forall j :: 0 <= j < |objects| ==> r[j] == objects[j].key
  {
    if objects == [] then [] else [objects[0].key] + Keys(objects[1..])
  }

  /** Calls that delete the given objects one after another delete exactly
      their keys, in that order. */
  lemma {:induction false} RemovalsOfDeletes(calls: seq<Call>, bucket: string, doomed: seq<ObjectInfo>)
    requires |calls| == |doomed|
    requires forall j :: 0 <= j < |doomed| ==> calls[j] == RemoveObject(bucket, doomed[j].key)
    ensures Removals(calls) == Keys(doomed)
  {
    if calls != [] {
      RemovalsOfDeletes(calls[1..], bucket, doomed[1..]);
    }
  }

  /** Client creation and bucket creation (main.go, from "Starting backup"
      to "Using bucket"), after the input checks have passed. */
  function Connect(c: Config, env: Env): (r: Step)
    ensures r.Continue? <==> env.clientErr.None? && BucketReady(env)
    ensures r.Continue? ==> |r.progress.log| == (if env.makeBucketErr.None? then 2 else 3)
    ensures r.Continue? ==>
      r.progress.log == [Message(Info, StartingText(c), env.clock(0))]
        + (if env.makeBucketErr.None? then [] else [Message(Info, AlreadyOwnText(c), env.clock(1))])
        + [Message(Info, UsingText(c), env.clock(|r.progress.log| - 1))]
    ensures r.Continue? ==>
      r.progress.calls == [NewClient(c.endpoint, c.accessKeyID, c.secretAccessKey, c.useSSL), MakeBucket(c.bucketName, c.location)]
        + (if env.makeBucketErr.None? then [] else [BucketExists(c.bucketName)])
    ensures r.Stop? ==> |r.report.log| > 0 && r.report.log[0] == Message(Info, StartingText(c), env.clock(0))
    ensures r.Stop? ==>
      r.report.calls == [NewClient(c.endpoint, c.accessKeyID, c.secretAccessKey, c.useSSL)]
        + (if env.clientErr.Some? then [] else [MakeBucket(c.bucketName, c.location), BucketExists(c.bucketName)])
    ensures r.Stop? && r.report.ending == Panicked ==> |r.report.log| == 1
    ensures r.Continue? ==> forall k :: 0 <= k < |r.progress.calls| ==> Preparatory(r.progress.calls[k])
    ensures r.Stop? ==> forall k :: 0 <= k < |r.report.calls| ==> Preparatory(r.report.calls[k])
    ensures r.Stop? ==> r.report.ending == (if env.clientErr.None? && BucketPanics(env) then Panicked else Exited(1))
    ensures r.Stop? ==> r.report.emailed == (r.report.ending == Exited(1))
    ensures r.Stop? ==> r.report.mail == (if r.report.emailed then EmailFor(c, r.report.log, env.hostname) else None)
    ensures r.Stop? && env.clientErr.Some? ==>
      |r.report.log| == 2 && r.report.log[1] == Message(Error, env.clientErr.value, env.clock(1))
    ensures r.Stop? && env.clientErr.None? && env.bucketExistsErr.Some? ==>
      |r.report.log| == 2 && r.report.log[1] == Message(Error, env.bucketExistsErr.value, env.clock(1))
  {
    var log := Note([], Info, StartingText(c), env.clock);
    var calls := [NewClient(c.endpoint, c.accessKeyID, c.secretAccessKey, c.useSSL)];
    if env.clientErr.Some? then
      Stop(Fatal(c, env, Progress(log, calls), env.clientErr.value))
    else
      var calls := calls + [MakeBucket(c.bucketName, c.location)];
      var using := UsingText(c);
      if env.makeBucketErr.None? then
        Continue(Progress(Note(log, Info, using, env.clock), calls))
      else
        var calls := calls + [BucketExists(c.bucketName)];
        if env.bucketExistsErr.None? && env.bucketExists then
          var log := Note(log, Info, AlreadyOwnText(c), env.clock);
          Continue(Progress(Note(log, Info, using, env.clock), calls))
        else if env.bucketExistsErr.Some? then
          Stop(Fatal(c, env, Progress(log, calls), env.bucketExistsErr.value))
        else
          Stop(Report(log, calls, false, None, Panicked))
  }

  /** The input checks, then `Connect`. A failed check records its one
      message and ends the run with code 1 before any external call and
      without notifying. */
  function Start(c: Config, env: Env): (r: Step)
    ensures r.Continue? <==> ReachesListing(c, env)
    ensures !Validated(c, env) ==> r == Stop(Report(r.report.log, [], false, None, Exited(1))) && |r.report.log| == 1
    ensures Validated(c, env) ==> r == Connect(c, env)
  {
    match ValidationFailure(c, env.folder)
    case Some(failure) =>
      Stop(Report(Note([], failure.0, failure.1, env.clock), [], false, None, Exited(1)))
    case None => Connect(c, env)
  }

  /** The messages of the listing loop, the first of them landing at log
      position `base`: one `error` message per failed entry, carrying its
      text, in listing order, and nothing for the entries that are objects. */
  function ListingMessages(items: seq<ListItem>, base: nat, clock: nat -> string): (r: Log)
    ensures |r| == |ListingErrors(items)|
    ensures forall j :: 0 <= j < |r| ==> r[j] == Message(Error, ListingErrors(items)[j], clock(base + j))
    decreases |items|
  {
    if items == [] then []
    else
      match items[0]
      case Listed(_) => ListingMessages(items[1..], base, clock)
      case ListErr(e) => [Message(Error, e, clock(base))] + ListingMessages(items[1..], base + 1, clock)
  }

  /** The message recorded for one delete: its error, or the removal. */
  function DeleteMessage(key: string, outcome: Option<string>, timestamp: string): Message {
    match outcome
    case Some(e) => Message(Error, e, timestamp)
    case None => Message(Success, "Successfully removed remote object: " + key, timestamp)
  }

  /** The pruning loop over the selected objects `doomed`, whose first
      message lands at log position `base`: delete number `j` removes
      `doomed[j]` and records exactly one message, in selection order; a
      failed delete is recorded and the loop goes on. */
  function Prune(bucket: string, doomed: seq<ObjectInfo>, base: nat, env: Env): (r: Progress)
    ensures |r.log| == |doomed| && |r.calls| == |doomed|
    ensures forall j :: 0 <= j < |doomed| ==> r.calls[j] == RemoveObject(bucket, doomed[j].key)
    ensures forall j :: 0 <= j < |doomed| ==>
      r.log[j] == DeleteMessage(doomed[j].key, env.removeErr(j), env.clock(base + j))
  {
    Progress(
      seq(|doomed|, j requires 0 <= j < |doomed| =>
        DeleteMessage(doomed[j].key, env.removeErr(j), env.clock(base + j))),
      seq(|doomed|, j requires 0 <= j < |doomed| => RemoveObject(bucket, doomed[j].key)))
  }

  /** The error texts of the failed listing entries, in listing order.
      A non-recursive name for `ListingErrors(env.listing)`, so that facts
      about it carry over between lemmas without unfolding the recursion. */
  function ListingFailures(env: Env): seq<string> {
    ListingErrors(env.listing)
  }

  /** The objects this run deletes, oldest first. */
  function Doomed(c: Config, env: Env): seq<ObjectInfo> {
    SelectForDeletion(Objects(env.listing), c.maxBackups)
  }

  /** The listing loop's messages for this run, from log position `base`:
      `ListingMessages` restated over `ListingFailures`, so that the run's
      lemmas never see the recursive definitions. */
  function ListingLog(env: Env, base: nat): (r: Log)
    ensures |r| == |ListingFailures(env)|
    ensures forall j :: 0 <= j < |r| ==> r[j] == Message(Error, ListingFailures(env)[j], env.clock(base + j))
  {
    ListingMessages(env.listing, base, env.clock)
  }

  /** The pruning loop over this run's selected objects, its first message
      at log position `base`; the `j`-th delete has outcome `removeErr(j)`.
      `Prune` restated over `Doomed(c, env)`, which keeps the run's lemmas
      from unfolding the selection. */
  function Deletes(c: Config, env: Env, base: nat): (r: Progress)
    ensures |r.log| == |Doomed(c, env)| && |r.calls| == |Doomed(c, env)|
    ensures forall j :: 0 <= j < |Doomed(c, env)| ==> r.calls[j] == RemoveObject(c.bucketName, Doomed(c, env)[j].key)
    ensures forall j :: 0 <= j < |Doomed(c, env)| ==>
      r.log[j] == DeleteMessage(Doomed(c, env)[j].key, env.removeErr(j), env.clock(base + j))
  {
    Prune(c.bucketName, Doomed(c, env), base, env)
  }

  /** Listing and pruning: the listing call, then one delete call per
      selected object; one log message per failed entry and per delete. */
  function ListAndPrune(c: Config, env: Env, p: Progress): (r: Progress)
    ensures |r.log| == |p.log| + |ListingFailures(env)| + |Doomed(c, env)|
    ensures r.log[..|p.log|] == p.log
    ensures |r.calls| > |p.calls| && r.calls[..|p.calls|] == p.calls
    ensures r.calls[|p.calls|] == ListObjects(c.bucketName, c.backupPrefix)
    ensures |r.calls| == |p.calls| + 1 + |Doomed(c, env)|
    ensures forall j :: 0 <= j < |Doomed(c, env)| ==>
      r.calls[|p.calls| + 1 + j] == RemoveObject(c.bucketName, Doomed(c, env)[j].key)
    ensures forall k :: |p.calls| <= k < |r.calls| ==> r.calls[k].ListObjects? || r.calls[k].RemoveObject?
  {
    var listed := ListingLog(env, |p.log|);
    var pruned := Deletes(c, env, |p.log| + |listed|);
    var list := ListObjects(c.bucketName, c.backupPrefix);
    var calls := p.calls + [list] + pruned.calls;
    assert (p.log + listed + pruned.log)[..|p.log|] == p.log;
    assert calls[..|p.calls|] == p.calls;
    ListingThenDeletes(p.calls, list, pruned.calls);
    Progress(p.log + listed + pruned.log, calls)
  }

  /** After `pre`, the calls `pre + [list] + rest` are the listing followed
      by deletes only; kept apart from `ListAndPrune` so that its case split
      is proved without the run's definitions in view. */
  lemma ListingThenDeletes(pre: seq<Call>, list: Call, rest: seq<Call>)
    requires list.ListObjects?
    requires forall i :: 0 <= i < |rest| ==> rest[i].RemoveObject?
    ensures forall k :: |pre| <= k < |pre + [list] + rest| ==>
      (pre + [list] + rest)[k].ListObjects? || (pre + [list] + rest)[k].RemoveObject?
  {
    var calls := pre + [list] + rest;
    forall k | |pre| <= k < |calls|
      ensures calls[k].ListObjects? || calls[k].RemoveObject?
    {
      if k > |pre| {
        assert calls[k] == rest[k - |pre| - 1];
      }
    }
  }

  /** Listing and pruning delete exactly the selected keys, in order. */
  lemma PruneRemovals(c: Config, env: Env, p: Progress)
    ensures Removals(ListAndPrune(c, env, p).calls) == Removals(p.calls) + Keys(Doomed(c, env))
    ensures RemovesOnlyFrom(c.bucketName, ListAndPrune(c, env, p).calls) <==> RemovesOnlyFrom(c.bucketName, p.calls)
  {
    PruneBucket(c, env, p);
    var doomed := Doomed(c, env);
    var pruned := Deletes(c, env, |p.log| + |ListingFailures(env)|);
    var list := ListObjects(c.bucketName, c.backupPrefix);
    assert ListAndPrune(c, env, p).calls == p.calls + [list] + pruned.calls;
    RemovalsOfDeletes(pruned.calls, c.bucketName, doomed);
    AppendNoRemovals(p.calls, [list]);
    RemovalsAppend(p.calls + [list], pruned.calls);
  }

  /** The deletes listing and pruning add all go to the configured bucket. */
  lemma PruneBucket(c: Config, env: Env, p: Progress)
    ensures RemovesOnlyFrom(c.bucketName, ListAndPrune(c, env, p).calls) <==> RemovesOnlyFrom(c.bucketName, p.calls)
  {
    var r := ListAndPrune(c, env, p);
    forall k | 0 <= k < |p.calls|
      ensures r.calls[k] == p.calls[k]
    {
      assert r.calls[k] == r.calls[..|p.calls|][k];
    }
    forall k | |p.calls| < k < |r.calls|
      ensures r.calls[k].RemoveObject? && r.calls[k].bucket == c.bucketName
    {
      assert r.calls[|p.calls| + 1 + (k - |p.calls| - 1)] == RemoveObject(c.bucketName, Doomed(c, env)[k - |p.calls| - 1].key);
    }
  }

  /** The messages listing and pruning add: first one `error` message per
      failed listing entry with its text, in listing order; then, for the
      `j`-th selected object, an `error` message with the delete's error text
      or a `success` message naming the key, according to that delete's
      outcome alone. Each message carries the time of its log position. */
  lemma ListAndPruneMessages(c: Config, env: Env, p: Progress)
    ensures forall j :: 0 <= j < |ListingFailures(env)| ==>
      ListAndPrune(c, env, p).log[|p.log| + j] == Message(Error, ListingFailures(env)[j], env.clock(|p.log| + j))
    ensures forall j :: 0 <= j < |Doomed(c, env)| ==>
      ListAndPrune(c, env, p).log[|p.log| + |ListingFailures(env)| + j]
        == DeleteMessage(Doomed(c, env)[j].key, env.removeErr(j), env.clock(|p.log| + |ListingFailures(env)| + j))
  {
    forall j | 0 <= j < |ListingFailures(env)|
      ensures ListAndPrune(c, env, p).log[|p.log| + j] == Message(Error, ListingFailures(env)[j], env.clock(|p.log| + j))
    {
      ListingMessageAt(c, env, p, j);
    }
    forall j | 0 <= j < |Doomed(c, env)|
      ensures ListAndPrune(c, env, p).log[|p.log| + |ListingFailures(env)| + j]
        == DeleteMessage(Doomed(c, env)[j].key, env.removeErr(j), env.clock(|p.log| + |ListingFailures(env)| + j))
    {
      DeleteMessageAt(c, env, p, j);
    }
  }

  /** `ListAndPruneMessages` at the `j`-th failed listing entry. */
  lemma ListingMessageAt(c: Config, env: Env, p: Progress, j: nat)
    requires j < |ListingFailures(env)|
    ensures ListAndPrune(c, env, p).log[|p.log| + j] == Message(Error, ListingFailures(env)[j], env.clock(|p.log| + j))
  {
    var listed := ListingLog(env, |p.log|);
    var pruned := Deletes(c, env, |p.log| + |ListingFailures(env)|);
    ListAndPruneLog(c, env, p);
    IndexSecond(p.log, listed, pruned.log, j);
  }

  /** `ListAndPruneMessages` at the `j`-th selected object. */
  lemma DeleteMessageAt(c: Config, env: Env, p: Progress, j: nat)
    requires j < |Doomed(c, env)|
    ensures ListAndPrune(c, env, p).log[|p.log| + |ListingFailures(env)| + j]
      == DeleteMessage(Doomed(c, env)[j].key, env.removeErr(j), env.clock(|p.log| + |ListingFailures(env)| + j))
  {
    var listed := ListingLog(env, |p.log|);
    var base := |p.log| + |ListingFailures(env)|;
    var pruned := Deletes(c, env, base);
    ListAndPruneLog(c, env, p);
    IndexThird(p.log, listed, pruned.log, j);
    assert pruned.log[j] == DeleteMessage(Doomed(c, env)[j].key, env.removeErr(j), env.clock(base + j));
  }

  /** The log of `ListAndPrune` in its three parts; unfolded once here so
      that the per-position lemmas above need not unfold it. */
  lemma ListAndPruneLog(c: Config, env: Env, p: Progress)
    ensures ListAndPrune(c, env, p).log
      == p.log + ListingLog(env, |p.log|) + Deletes(c, env, |p.log| + |ListingFailures(env)|).log
  {
  }

  /** Position `|a| + j` of `a + b + d` is position `j` of `b`. A separate
      lemma so that this step is proved without the run's definitions in view. */
  lemma IndexSecond<T>(a: seq<T>, b: seq<T>, d: seq<T>, j: nat)
    requires j < |b|
    ensures (a + b + d)[|a| + j] == b[j]
  {
  }

  /** Position `|a| + |b| + j` of `a + b + d` is position `j` of `d`, kept
      apart for the same reason as `IndexSecond`. */
  lemma IndexThird<T>(a: seq<T>, b: seq<T>, d: seq<T>, j: nat)
    requires j < |d|
    ensures (a + b + d)[|a| + |b| + j] == d[j]
  {
  }

  /** The archive name, which is also the upload key. */
  function ArchiveName(c: Config, env: Env): string {
    c.backupPrefix + env.archiveTime + ".zip"
  }

  /** The local path of the archive. */
  function ArchivePath(c: Config, env: Env): string {
    "/tmp/" + ArchiveName(c, env)
  }

  /** The announcement of the archive, naming its path and the folder. */
  function CreatingText(c: Config, env: Env): string {
    "Creating: " + ArchivePath(c, env) + " which will contain the contents of: " + c.backupFolder
  }

  /** The upload report, with the byte count formatted by `%d`. */
  function UploadedText(c: Config, env: Env, size: int): string {
    "Successfully uploaded " + ArchiveName(c, env) + " of size " + FormatInt(size)
  }

  function LocalRemovedText(c: Config, env: Env): string {
    "Successfully removed " + ArchiveName(c, env) + " from local storage"
  }

  /** The calls of the archive, upload and cleanup steps. */
  predicate ArchiveCall(c: Config, env: Env, call: Call) {
    || call == MakeZip(ArchivePath(c, env), c.backupFolder)
    || call == PutObject(c.bucketName, ArchiveName(c, env), ArchivePath(c, env), "application/zip")
    || call == RemoveFile(ArchivePath(c, env))
  }

  /** Removing the local archive, then the final notification and exit. */
  function Cleanup(c: Config, env: Env, p: Progress): (r: Report)
    ensures |r.log| == |p.log| + 1 && r.log[..|p.log|] == p.log
    ensures r.calls == p.calls + [RemoveFile(ArchivePath(c, env))]
    ensures r.ending == (if env.cleanupErr.None? then Exited(0) else Exited(1))
    ensures r.emailed && r.mail == EmailFor(c, r.log, env.hostname)
    ensures r.log[|p.log|] == (if env.cleanupErr.None? then Message(Success, LocalRemovedText(c, env), env.clock(|p.log|))
                               else Message(Error, env.cleanupErr.value, env.clock(|p.log|)))
  {
    var calls := p.calls + [RemoveFile(ArchivePath(c, env))];
    if env.cleanupErr.Some? then
      Fatal(c, env, Progress(p.log, calls), env.cleanupErr.value)
    else
      var log := Note(p.log, Success, LocalRemovedText(c, env), env.clock);
      Report(log, calls, true, EmailFor(c, log, env.hostname), Exited(0))
  }

  /** Uploading the archive under its name, then `Cleanup`. */
  function UploadArchive(c: Config, env: Env, p: Progress): (r: Report)
    ensures |r.log| > |p.log| && r.log[..|p.log|] == p.log
    ensures |r.calls| > |p.calls| && r.calls[..|p.calls|] == p.calls
    ensures r.calls[|p.calls|] == PutObject(c.bucketName, ArchiveName(c, env), ArchivePath(c, env), "application/zip")
    ensures |r.calls| == |p.calls| + (if env.upload.Uploaded? then 2 else 1)
    ensures env.upload.Uploaded? ==> r.calls[|p.calls| + 1] == RemoveFile(ArchivePath(c, env))
    ensures forall k :: |p.calls| <= k < |r.calls| ==> ArchiveCall(c, env, r.calls[k])
    ensures r.ending == (if env.upload.Uploaded? && env.cleanupErr.None? then Exited(0) else Exited(1))
    ensures r.emailed && r.mail == EmailFor(c, r.log, env.hostname)
    ensures env.upload.UploadFailed? ==>
      |r.log| == |p.log| + 1 && r.log[|p.log|] == Message(Error, env.upload.err, env.clock(|p.log|))
    ensures r.ending == Exited(1) ==> r.log[|r.log| - 1].kind == Error
    ensures env.upload.Uploaded? ==>
      && |r.log| == |p.log| + 2
      && r.log[|p.log|] == Message(Success, UploadedText(c, env, env.upload.size), env.clock(|p.log|))
      && r.log[|p.log| + 1] == (if env.cleanupErr.None? then Message(Success, LocalRemovedText(c, env), env.clock(|p.log| + 1))
                                else Message(Error, env.cleanupErr.value, env.clock(|p.log| + 1)))
  {
    var calls := p.calls + [PutObject(c.bucketName, ArchiveName(c, env), ArchivePath(c, env), "application/zip")];
    match env.upload
    case UploadFailed(e) => Fatal(c, env, Progress(p.log, calls), e)
    case Uploaded(n) =>
      var log := Note(p.log, Success, UploadedText(c, env, n), env.clock);
      var r := Cleanup(c, env, Progress(log, calls));
      assert r.log[..|log|][..|p.log|] == p.log;
      assert r.log[|p.log|] == r.log[..|log|][|p.log|];
      assert r.calls[..|p.calls|] == p.calls;
      r
  }

  /** Announcing and building the archive at `/tmp/<name>`: on failure
      the zip error is recorded, the notifier gets the log and the run
      exits 1; otherwise the run goes on with the announcement recorded. */
  function ZipStep(c: Config, env: Env, p: Progress): (r: Step)
    ensures r.Continue? <==> env.zipErr.None?
    ensures r.Continue? ==>
      && |r.progress.log| == |p.log| + 1 && r.progress.log[..|p.log|] == p.log
      && r.progress.log[|p.log|] == Message(Info, CreatingText(c, env), env.clock(|p.log|))
      && r.progress.calls == p.calls + [MakeZip(ArchivePath(c, env), c.backupFolder)]
    ensures r.Stop? ==>
      && |r.report.log| == |p.log| + 2 && r.report.log[..|p.log|] == p.log
      && r.report.log[|p.log|] == Message(Info, CreatingText(c, env), env.clock(|p.log|))
      && r.report.log[|p.log| + 1] == Message(Error, env.zipErr.value, env.clock(|p.log| + 1))
      && r.report.calls == p.calls + [MakeZip(ArchivePath(c, env), c.backupFolder)]
      && r.report.emailed && r.report.mail == EmailFor(c, r.report.log, env.hostname)
      && r.report.ending == Exited(1)
  {
    var path := ArchivePath(c, env);
    var log := Note(p.log, Info, CreatingText(c, env), env.clock);
    var calls := p.calls + [MakeZip(path, c.backupFolder)];
    if env.zipErr.Some? then
      var r := Fatal(c, env, Progress(log, calls), env.zipErr.value);
      assert r.log == p.log + [log[|p.log|]] + [Message(Error, env.zipErr.value, env.clock(|log|))];
      Stop(r)
    else
      Continue(Progress(log, calls))
  }

  /** Archiving the folder to `/tmp/<name>`, then `UploadArchive`. */
  function ArchiveAndUpload(c: Config, env: Env, p: Progress): (r: Report)
    ensures |r.log| > |p.log| && r.log[..|p.log|] == p.log
    ensures |r.calls| > |p.calls| && r.calls[..|p.calls|] == p.calls
    ensures r.calls[|p.calls|] == MakeZip(ArchivePath(c, env), c.backupFolder)
    ensures |r.calls| == |p.calls| + (if env.zipErr.Some? then 1 else if env.upload.UploadFailed? then 2 else 3)
    ensures env.zipErr.None? && env.upload.Uploaded? ==> r.calls[|p.calls| + 2] == RemoveFile(ArchivePath(c, env))
    ensures forall k :: |p.calls| <= k < |r.calls| ==> ArchiveCall(c, env, r.calls[k])
    ensures (exists k :: |p.calls| <= k < |r.calls| && r.calls[k].PutObject?) <==> env.zipErr.None?
    ensures r.ending == (if ArchiveSucceeds(env) then Exited(0) else Exited(1))
    ensures r.emailed && r.mail == EmailFor(c, r.log, env.hostname)
    ensures env.zipErr.Some? ==>
      |r.log| == |p.log| + 2 && r.log[|p.log| + 1] == Message(Error, env.zipErr.value, env.clock(|p.log| + 1))
    ensures env.zipErr.None? && env.upload.UploadFailed? ==>
      |r.log| == |p.log| + 2 && r.log[|p.log| + 1] == Message(Error, env.upload.err, env.clock(|p.log| + 1))
    ensures r.ending == Exited(1) ==> r.log[|r.log| - 1].kind == Error
    ensures r.log[|p.log|] == Message(Info, CreatingText(c, env), env.clock(|p.log|))
    ensures env.zipErr.None? && env.upload.Uploaded? ==>
      && |r.log| == |p.log| + 3
      && r.log[|p.log| + 1] == Message(Success, UploadedText(c, env, env.upload.size), env.clock(|p.log| + 1))
      && r.log[|p.log| + 2] == (if env.cleanupErr.None? then Message(Success, LocalRemovedText(c, env), env.clock(|p.log| + 2))
                                else Message(Error, env.cleanupErr.value, env.clock(|p.log| + 2)))
    ensures env.zipErr.None? ==>
      && |r.calls| >= |p.calls| + 2
      && r.calls[|p.calls| + 1] == PutObject(c.bucketName, ArchiveName(c, env), ArchivePath(c, env), "application/zip")
  {
    match ZipStep(c, env, p)
    case Stop(r) =>
      assert forall k :: |p.calls| <= k < |r.calls| ==> r.calls[k] == MakeZip(ArchivePath(c, env), c.backupFolder);
      r
    case Continue(q) =>
      var r := UploadArchive(c, env, q);
      assert env.upload.UploadFailed? ==> r.log[|p.log| + 1] == r.log[|q.log|];
      assert r.log[..|q.log|][..|p.log|] == p.log;
      assert r.calls[..|q.calls|][..|p.calls|] == p.calls;
      assert r.calls[|p.calls|] == r.calls[..|q.calls|][|p.calls|];
      r
  }

  /** Archiving, uploading and cleaning up delete no remote object. */
  lemma ArchiveKeepsRemovals(c: Config, env: Env, p: Progress)
    ensures Removals(ArchiveAndUpload(c, env, p).calls) == Removals(p.calls)
    ensures RemovesOnlyFrom(c.bucketName, ArchiveAndUpload(c, env, p).calls) <==> RemovesOnlyFrom(c.bucketName, p.calls)
  {
    var r := ArchiveAndUpload(c, env, p);
    var tail := r.calls[|p.calls|..];
    assert r.calls == p.calls + tail;
    assert forall k :: 0 <= k < |tail| ==> ArchiveCall(c, env, tail[k]);
    AppendNoRemovals(p.calls, tail);
  }

  /** The whole run. It ends in exit code 0, exit code 1 or a panic; it
      exits 0 exactly when every fatal step succeeds; it panics exactly when
      bucket creation fails and the existence check answers "no" without an
      error; the notifier is invoked exactly on the runs that pass the input
      checks and do not panic, always with the final log; and a run that
      fails the input checks records one message and calls nothing outside. */
  function Run(c: Config, env: Env): (r: Report)
    ensures r.ending == Exited(0) || r.ending == Exited(1) || r.ending == Panicked
    ensures r.ending == Exited(0) <==> ReachesListing(c, env) && ArchiveSucceeds(env)
    ensures r.ending == Panicked <==> Validated(c, env) && env.clientErr.None? && BucketPanics(env)
    ensures r.emailed <==> Validated(c, env) && r.ending != Panicked
    ensures r.emailed ==> r.mail == EmailFor(c, r.log, env.hostname)
    ensures !r.emailed ==> r.mail == None
    ensures !Validated(c, env) ==> r.calls == [] && |r.log| == 1
    ensures Validated(c, env) && r.ending == Exited(1) ==> |r.log| > 0 && r.log[|r.log| - 1].kind == Error
  {
    match Start(c, env)
    case Stop(report) => report
    case Continue(p) => ArchiveAndUpload(c, env, ListAndPrune(c, env, p))
  }
}

=== FILE: gostrings.dfy ===
/** The pieces of Go's standard library string handling that the backup run
    relies on: `unicode.IsSpace`, `strings.TrimSpace`, `strings.Trim` with a
    cutset, `strings.ToUpper` on ASCII text and `%d` formatting of integers.
    Strings are sequences of Unicode scalar values. */
module GoStrings {

  /** Go's `unicode.IsSpace`: the Latin-1 spaces (tab, line feed, vertical tab,
      form feed, carriage return, space, NEL, NBSP) and, above Latin-1, the
      characters of Unicode's White_Space property. */
  predicate IsSpace(c: char) {
    || c == '\t' || c == '\n' || c == '\U{0B}' || c == '\U{0C}' || c == '\r' || c == ' '
    || c == '\U{85}' || c == '\U{A0}'
    || c == '\U{1680}' || ('\U{2000}' <= c <= '\U{200A}')
    || c == '\U{2028}' || c == '\U{2029}' || c == '\U{202F}' || c == '\U{205F}' || c == '\U{3000}'
  }

  /** The membership test of a cutset as `strings.Trim` reads it. */
  function InCutset(cutset: string): char -> bool {
    c => c in cutset
  }

  /** `s` without its longest prefix of characters satisfying `p`. */
  function TrimLeftFunc(s: string, p: char -> bool): (r: string)
    ensures |r| <= |s| && r == s[|s| - |r|..]
    ensures forall k :: 0 <= k < |s| - |r| ==> p(s[k])
    ensures r == [] || !p(r[0])
    decreases |s|
  {
    if |s| > 0 && p(s[0]) then TrimLeftFunc(s[1..], p) else s
  }

  /** `s` without its longest suffix of characters satisfying `p`. */
  function TrimRightFunc(s: string, p: char -> bool): (r: string)
    ensures |r| <= |s| && r == s[..|r|]
    ensures forall k :: |r| <= k < |s| ==> p(s[k])
    ensures r == [] || !p(r[|r| - 1])
    decreases |s|
  {
    if |s| > 0 && p(s[|s| - 1]) then TrimRightFunc(s[..|s| - 1], p) else s
  }

  /** `r` is the infix of `s` starting at `i`, and every character of `s`
      outside that infix satisfies `p`. */
  predicate TrimmedAt(s: string, p: char -> bool, r: string, i: int) {
    && 0 <= i && i + |r| <= |s|
    && r == s[i..i + |r|]
    && (forall k :: 0 <= k < i ==> p(s[k]))
    && (forall k :: i + |r| <= k < |s| ==> p(s[k]))
  }

  /** Neither end of `r` satisfies `p`. */
  predicate CleanEnds(r: string, p: char -> bool) {
    r == [] || (!p(r[0]) && !p(r[|r| - 1]))
  }

  /** Go's `strings.TrimFunc`: both ends stripped of characters satisfying `p`. */
  function TrimFunc(s: string, p: char -> bool): (r: string)
    ensures exists i :: TrimmedAt(s, p, r, i)
    ensures CleanEnds(r, p)
  {
    var left := TrimLeftFunc(s, p);
    var r := TrimRightFunc(left, p);
    assert TrimmedAt(s, p, r, |s| - |left|);
    r
  }

  /** At most one string is a trimming of `s` with clean ends, so every
      property of `TrimFunc` follows from its two postconditions. */
  lemma TrimUnique(s: string, p: char -> bool, r1: string, i1: int, r2: string, i2: int)
    requires TrimmedAt(s, p, r1, i1) && CleanEnds(r1, p)
    requires TrimmedAt(s, p, r2, i2) && CleanEnds(r2, p)
    ensures r1 == r2
  {
  }

  /** Go's `strings.Trim(s, cutset)`: removes every leading and trailing
      character that occurs in `cutset`; the cutset is a set of characters,
      not a word to strip. */
  function Trim(s: string, cutset: string): (r: string)
    ensures exists i :: TrimmedAt(s, InCutset(cutset), r, i)
    ensures r == [] || (r[0] !in cutset && r[|r| - 1] !in cutset)
  {
    var r := TrimFunc(s, InCutset(cutset));
    assert r != [] ==> InCutset(cutset)(r[0]) == (r[0] in cutset);
    assert r != [] ==> InCutset(cutset)(r[|r| - 1]) == (r[|r| - 1] in cutset);
    r
  }

  /** Cutset characters appended to a string whose ends are not in the
      cutset are exactly what `Trim` takes off again. */
  lemma TrimAppendedCutset(s: string, tail: string, cutset: string)
    requires s != [] && s[0] !in cutset && s[|s| - 1] !in cutset
    requires forall k :: 0 <= k < |tail| ==> tail[k] in cutset
    ensures Trim(s + tail, cutset) == s
  {
    var p := InCutset(cutset);
    var t := s + tail;
    assert TrimmedAt(t, p, s, 0) by {
      assert t[..|s|] == s;
      forall k | |s| <= k < |t| ensures p(t[k]) {
        assert t[k] == tail[k - |s|];
      }
    }
    var i :| TrimmedAt(t, p, Trim(t, cutset), i);
    TrimUnique(t, p, Trim(t, cutset), i, s, 0);
  }

  /** Go's `strings.TrimSpace`. */
  function TrimSpace(s: string): (r: string)
    ensures exists i :: TrimmedAt(s, IsSpace, r, i)
    ensures r == [] || (!IsSpace(r[0]) && !IsSpace(r[|r| - 1]))
  {
    TrimFunc(s, IsSpace)
  }

  /** `len(strings.TrimSpace(s)) == 0` holds exactly when `s` consists of
      white space only (the empty string included). */
  lemma BlankIffAllSpace(s: string)
    ensures |TrimSpace(s)| == 0 <==> forall k :: 0 <= k < |s| ==> IsSpace(s[k])
  {
  }

  /** Go's `unicode.ToUpper` restricted to ASCII letters. */
  function UpperAscii(c: char): char {
    if 'a' <= c <= 'z' then (c as int - 32) as char else c
  }

  /** Go's `strings.ToUpper` on text whose letters are ASCII. */
  function ToUpperAscii(s: string): (r: string)
    ensures |r| == |s|
    ensures forall k :: 0 <= k < |s| ==> r[k] == UpperAscii(s[k])
  {
    if s == [] then [] else [UpperAscii(s[0])] + ToUpperAscii(s[1..])
  }

  predicate IsDigit(c: char) {
    '0' <= c <= '9'
  }

  function DigitChar(d: int): char
    requires 0 <= d < 10
  {
    ('0' as int + d) as char
  }

  function DigitValue(c: char): int
    requires IsDigit(c)
  {
    c as int - '0' as int
  }

  /** The decimal numeral of `n`, most significant digit first. */
  function FormatNat(n: nat): (r: string)
    ensures |r| >= 1
    ensures forall k :: 0 <= k < |r| ==> IsDigit(r[k])
    ensures r[0] == '0' ==> n == 0 && |r| == 1
  {
    if n < 10 then [DigitChar(n)] else FormatNat(n / 10) + [DigitChar(n % 10)]
  }

  /** Go's `%d` verb on a signed integer: a `-` for negatives, then the
      decimal digits of the magnitude with no leading zero. */
  function FormatInt(n: int): (r: string)
    ensures |r| >= (if n < 0 then 2 else 1)
    ensures (r[0] == '-') <==> n < 0
    ensures forall k :: (if n < 0 then 1 else 0) <= k < |r| ==> IsDigit(r[k])
    ensures r[if n < 0 then 1 else 0] == '0' ==> n == 0 && r == "0"
  {
    if n < 0 then
      var r := "-" + FormatNat(-n);
      assert r[1..] == FormatNat(-n);
      r
    else FormatNat(n)
  }

  /** Reads back a string of decimal digits. */
  function ParseNat(s: string): nat
    requires forall k :: 0 <= k < |s| ==> IsDigit(s[k])
  {
    if s == [] then 0 else ParseNat(s[..|s| - 1]) * 10 + DigitValue(s[|s| - 1])
  }

  /** Reads back an optionally signed decimal numeral. */
  function ParseInt(s: string): int
    requires |s| >= 1
    requires forall k :: (if s[0] == '-' then 1 else 0) <= k < |s| ==> IsDigit(s[k])
  {
    if s[0] == '-' then -(ParseNat(s[1..]) as int) else ParseNat(s)
  }

  lemma {:induction false} FormatNatRoundTrip(n: nat)
    ensures ParseNat(FormatNat(n)) == n
  {
    if n >= 10 {
      var s := FormatNat(n);
      assert s[..|s| - 1] == FormatNat(n / 10);
      FormatNatRoundTrip(n / 10);
    }
  }

  /** `%d` loses nothing: the numeral reads back as the number printed. */
  lemma FormatIntRoundTrip(n: int)
    ensures ParseInt(FormatInt(n)) == n
  {
    var s := FormatInt(n);
    if n < 0 {
      assert s[1..] == FormatNat(-n);
      FormatNatRoundTrip(-n);
    } else {
      FormatNatRoundTrip(n);
    }
  }
}

=== FILE: notifier.dfy ===
/** `result.email` in main.go: whether a summary mail is sent for a log, and
    what it contains. Dialling the relay and its outcome are not modelled:
    the source prints a send error and carries on, so it never reaches the
    run's result. */
module Notifier {
  import opened Optional
  import opened GoStrings
  import opened ResultLog
  import opened Settings

  /** The mail handed to the relay. */
  datatype Mail = Mail(
    from: string,
    to: string,
    subject: string,
    body: string,
    host: string,
    port: int,
    username: string,
    password: string)

  /** The line-break marker appended to each rendered message, which is also
      the cutset the finished body is trimmed with. */
  const LineBreak: string := "<br />"

  /** The kind as printed in the body, upper-cased. */
  function KindLabel(k: Kind): (r: string)
    ensures r == ToUpperAscii(KindName(k))
  {
    match k
    case Info => "INFO"
    case Success => "SUCCESS"
    case Error => "ERROR"
  }

  /** The loop of `result.email` that sets `hasError` and `hasSuccess`, one
      message at a time, starting from the flags given. */
  function ScanFlags(c: Config, msgs: Log, hasError: bool, hasSuccess: bool): (r: (bool, bool))
    ensures r.0 <==> hasError || (c.notifyError && HasKind(msgs, Error))
    ensures r.1 <==> hasSuccess || (c.notifySuccess && HasKind(msgs, Success))
    decreases |msgs|
  {
    if msgs == [] then (hasError, hasSuccess)
    else
      var m := msgs[0];
      assert forall k :: HasKind(msgs, k) <==> m.kind == k || HasKind(msgs[1..], k) by {
        forall k ensures HasKind(msgs, k) ==> m.kind == k || HasKind(msgs[1..], k) {
          if HasKind(msgs, k) && m.kind != k {
            var i :| 0 <= i < |msgs| && msgs[i].kind == k;
            assert msgs[1..][i - 1].kind == k;
          }
        }
        forall k ensures HasKind(msgs[1..], k) ==> HasKind(msgs, k) {
          if HasKind(msgs[1..], k) {
            var i :| 0 <= i < |msgs[1..]| && msgs[1..][i].kind == k;
            assert msgs[i + 1].kind == k;
          }
        }
      }
      if !hasSuccess && c.notifySuccess && m.kind == Success then
        ScanFlags(c, msgs[1..], hasError, true)
      else if !hasError && c.notifyError && m.kind == Error then
        ScanFlags(c, msgs[1..], true, hasSuccess)
      else
        ScanFlags(c, msgs[1..], hasError, hasSuccess)
  }

  /** The gate of `result.email`: a mail goes out exactly when the relay
      host, the sender and the recipient are all set and the log holds a
      `success` message with success notification on or an `error` message
      with error notification on. `info` messages never cause a mail. */
  function ShouldSend(c: Config, log: Log): (r: bool)
    ensures r <==>
      && c.smtpHostname != "" && c.smtpFromEmail != "" && c.notifyEmail != ""
      && ((c.notifySuccess && HasKind(log, Success)) || (c.notifyError && HasKind(log, Error)))
  {
    if c.smtpHostname == "" || c.smtpFromEmail == "" || c.notifyEmail == "" then false
    else if |log| == 0 then false
    else
      var flags := ScanFlags(c, log, false, false);
      flags.0 || flags.1
  }

  /** One rendered message, line-break marker included. */
  function Segment(m: Message): string {
    m.timestamp + " " + KindLabel(m.kind) + ": " + m.text + LineBreak
  }

  /** The rendered messages of the log, concatenated in log order. */
  function Joined(log: Log): string {
    if log == [] then "" else Segment(log[0]) + Joined(log[1..])
  }

  /** Rendering distributes over concatenation of logs: the body lists one
      segment per message, in the order the messages were recorded. */
  lemma {:induction false} JoinedAppend(a: Log, b: Log)
    ensures Joined(a + b) == Joined(a) + Joined(b)
  {
    if a == [] {
      assert a + b == b;
    } else {
      assert (a + b)[0] == a[0];
      assert (a + b)[1..] == a[1..] + b;
      JoinedAppend(a[1..], b);
      calc {
        Joined(a + b);
        Segment(a[0]) + Joined(a[1..] + b);
        Segment(a[0]) + (Joined(a[1..]) + Joined(b));
        (Segment(a[0]) + Joined(a[1..])) + Joined(b);
      }
    }
  }

  /** The mail body: the joined segments trimmed with `strings.Trim` and the
      cutset "<br />", so characters of that cutset are stripped from both
      ends one by one. The body is an infix of the joined segments, what is
      cut off consists of cutset characters only, and neither end of the body
      is a cutset character. */
  function Body(log: Log): (r: string)
    ensures exists i :: TrimmedAt(Joined(log), InCutset(LineBreak), r, i)
    ensures r == [] || (r[0] !in LineBreak && r[|r| - 1] !in LineBreak)
  {
    Trim(Joined(log), LineBreak)
  }

  /** The cutset is a set of characters, not a suffix: when the last
      message's text ends in `r`, the body loses that `r` together with the
      trailing "<br />". Shown for any log whose first timestamp does not
      start with a cutset character. */
  lemma TrailingRTrimmed(log: Log, m: Message, head: string)
    requires m.text == head + "r"
    requires |head| > 0 && head[|head| - 1] !in LineBreak
    requires |(log + [m])[0].timestamp| > 0 && (log + [m])[0].timestamp[0] !in LineBreak
    ensures Body(log + [m]) == Joined(log) + (m.timestamp + " " + KindLabel(m.kind) + ": " + head)
  {
    var expected := m.timestamp + " " + KindLabel(m.kind) + ": " + head;
    var s := Joined(log) + expected;
    JoinedLastSegment(log, m, head);
    if log == [] {
      assert s[0] == m.timestamp[0];
    } else {
      JoinedStartsWithTimestamp(log);
      assert (log + [m])[0] == log[0];
    }
    assert s[|s| - 1] == head[|head| - 1];
    TrimAppendedCutset(s, "r<br />", LineBreak);
  }

  /** The joined log whose last message text is `head + "r"`, split before
      that `r`. */
  lemma JoinedLastSegment(log: Log, m: Message, head: string)
    requires m.text == head + "r"
    ensures Joined(log + [m]) == (Joined(log) + (m.timestamp + " " + KindLabel(m.kind) + ": " + head)) + "r<br />"
  {
    assert Joined([m]) == m.timestamp + " " + KindLabel(m.kind) + ": " + head + "r<br />" by {
      assert Joined([m][1..]) == [];
    }
    JoinedAppend(log, [m]);
  }

  /** A joined log starts with its first message's timestamp. */
  lemma JoinedStartsWithTimestamp(log: Log)
    requires log != [] && |log[0].timestamp| > 0
    ensures Joined(log) != [] && Joined(log)[0] == log[0].timestamp[0]
  {
    assert Joined(log) == Segment(log[0]) + Joined(log[1..]);
  }

  /** `os.Hostname()` as used in the subject: the name, or "" on failure. */
  function HostOr(hostname: Option<string>): string {
    match hostname
    case Some(name) => name
    case None => ""
  }

  /** `result.email` applied to a log: `None` when nothing is sent, else the
      mail, addressed from and to the configured addresses, whose subject
      names the host and whose body renders the whole log, handed to the
      configured relay with the configured credentials. */
  function EmailFor(c: Config, log: Log, hostname: Option<string>): (r: Option<Mail>)
    ensures r.Some? <==> ShouldSend(c, log)
    ensures r.Some? ==> r.value.from == c.smtpFromEmail && r.value.to == c.notifyEmail
    ensures r.Some? ==> r.value.subject == "[" + HostOr(hostname) + "]: Backup status"
    ensures r.Some? ==> r.value.body == Body(log)
    ensures r.Some? ==> r.value.host == c.smtpHostname && r.value.port == c.smtpPort
    ensures r.Some? ==> r.value.username == c.smtpUsername && r.value.password == c.smtpPassword
  {
    if !ShouldSend(c, log) then None
    else
      Some(Mail(
        from := c.smtpFromEmail,
        to := c.notifyEmail,
        subject := "[" + HostOr(hostname) + "]: Backup status",
        body := Body(log),
        host := c.smtpHostname,
        port := c.smtpPort,
        username := c.smtpUsername,
        password := c.smtpPassword))
  }

  /** With both notification switches off nothing is ever sent, whatever
      the log holds. */
  lemma NoSwitchesNoMail(c: Config, log: Log, hostname: Option<string>)
    requires !c.notifySuccess && !c.notifyError
    ensures EmailFor(c, log, hostname) == None
  {
  }

  /** A log of `info` messages alone never causes a mail. */
  lemma InfoOnlyNoMail(c: Config, log: Log, hostname: Option<string>)
    requires forall i :: 0 <= i < |log| ==> log[i].kind == Info
    ensures EmailFor(c, log, hostname) == None
  {
  }
}

=== FILE: optional.dfy ===
/** An optional value: Go's `(value, error)` pairs and nil-able strings
    are modelled with it throughout. */
module Optional {

  datatype Option<+T> = None | Some(value: T)
}

=== FILE: resultlog.dfy ===
/** The run's result log (`resultMessage` and `result.message` in main.go):
    an append-only sequence of typed, timestamped messages. */
module ResultLog {

  /** The three message types `info`, `success` and `error`. */
  datatype Kind = Info | Success | Error

  /** The type string the source stores in a message. */
  function KindName(k: Kind): string {
    match k
    case Info => "info"
    case Success => "success"
    case Error => "error"
  }

  /** A message as recorded; the timestamp is the already formatted local
      time, taken as an opaque string. */
  datatype Message = Message(kind: Kind, text: string, timestamp: string)

  type Log = seq<Message>

  /** `result.message`: the new message goes at the end and every message
      already recorded stays where it was. */
  function Record(log: Log, m: Message): (r: Log)
    ensures |r| == |log| + 1
    ensures r[..|log|] == log
    ensures r[|log|] == m
  {
    log + [m]
  }

  /** Some message of the log has kind `k`. */
  predicate HasKind(log: Log, k: Kind) {
    exists i :: 0 <= i < |log| && log[i].kind == k
  }

  /** After recording a message, a kind is present exactly when it was
      present before or is the new message's kind: recording never hides a
      message from the notification gate. */
  lemma HasKindAfterRecord(log: Log, m: Message, k: Kind)
    ensures HasKind(Record(log, m), k) <==> HasKind(log, k) || m.kind == k
  {
    var r := Record(log, m);
    if HasKind(log, k) {
      var i :| 0 <= i < |log| && log[i].kind == k;
      assert r[i] == r[..|log|][i];
    }
    if HasKind(r, k) && m.kind != k {
      var i :| 0 <= i < |r| && r[i].kind == k;
      assert log[i] == r[..|log|][i];
    }
    if m.kind == k {
      assert r[|log|].kind == k;
    }
  }
}

=== FILE: retention.dfy ===
/** The listing of prefixed backup objects and the retention policy applied
    to it (main.go, the listing loop and the `MaxBackups` pruning). */
module Retention {

  /** The fields of `minio.ObjectInfo` the run looks at. */
  datatype ObjectInfo = ObjectInfo(key: string, size: int, lastModified: string)

  /** One entry of the drained listing stream: an object, or an entry whose
      `Err` is set, carrying that error's text. */
  datatype ListItem = Listed(info: ObjectInfo) | ListErr(err: string)

  /** The objects of the listing, in listing order, without the failed entries. */
  function Objects(items: seq<ListItem>): seq<ObjectInfo> {
    if items == [] then [] else ObjectOf(items[0]) + Objects(items[1..])
  }

  function ObjectOf(item: ListItem): seq<ObjectInfo> {
    match item
    case Listed(o) => [o]
    case ListErr(_) => []
  }

  /** The error texts of the failed entries, in listing order. */
  function ListingErrors(items: seq<ListItem>): seq<string> {
    if items == [] then [] else ErrorOf(items[0]) + ListingErrors(items[1..])
  }

  function ErrorOf(item: ListItem): seq<string> {
    match item
    case Listed(_) => []
    case ListErr(e) => [e]
  }

  /** Filtering distributes over concatenation: the objects of a listing keep
      their relative order. */
  lemma {:induction false} ObjectsAppend(a: seq<ListItem>, b: seq<ListItem>)
    ensures Objects(a + b) == Objects(a) + Objects(b)
  {
    if a == [] {
      assert a + b == b;
    } else {
      assert (a + b)[0] == a[0];
      assert (a + b)[1..] == a[1..] + b;
      ObjectsAppend(a[1..], b);
      calc {
        Objects(a + b);
        ObjectOf(a[0]) + Objects(a[1..] + b);
        ObjectOf(a[0]) + (Objects(a[1..]) + Objects(b));
        (ObjectOf(a[0]) + Objects(a[1..])) + Objects(b);
      }
    }
  }

  /** The errors of a listing keep their relative order too. */
  lemma {:induction false} ErrorsAppend(a: seq<ListItem>, b: seq<ListItem>)
    ensures ListingErrors(a + b) == ListingErrors(a) + ListingErrors(b)
  {
    if a == [] {
      assert a + b == b;
    } else {
      assert (a + b)[0] == a[0];
      assert (a + b)[1..] == a[1..] + b;
      ErrorsAppend(a[1..], b);
      calc {
        ListingErrors(a + b);
        ErrorOf(a[0]) + ListingErrors(a[1..] + b);
        ErrorOf(a[0]) + (ListingErrors(a[1..]) + ListingErrors(b));
        (ErrorOf(a[0]) + ListingErrors(a[1..])) + ListingErrors(b);
      }
    }
  }

  /** Every entry of the listing is either kept as an object or reported as
      one error; none is lost and none is counted twice. */
  lemma {:induction false} ListingPartition(items: seq<ListItem>)
    ensures |Objects(items)| + |ListingErrors(items)| == |items|
    ensures (forall i :: 0 <= i < |items| ==> items[i].Listed?) ==> |Objects(items)| == |items|
  {
    if items != [] {
      ListingPartition(items[1..]);
    }
  }

  function Min(a: int, b: int): int {
    if a <= b then a else b
  }

  /** The objects to delete: with retention enabled (`maxBackups > 0`) and
      more objects than it allows, the oldest excess ones, i.e. a prefix of
      the listing; otherwise none. */
  function SelectForDeletion<T>(objects: seq<T>, maxBackups: int): (r: seq<T>)
    ensures maxBackups <= 0 || |objects| <= maxBackups ==> r == []
    ensures maxBackups > 0 && |objects| > maxBackups ==> |r| == |objects| - maxBackups
    ensures r == objects[..|r|]
  {
    if maxBackups > 0 && |objects| > maxBackups then objects[..|objects| - maxBackups] else []
  }

  /** The objects that survive pruning when every delete succeeds. */
  function Kept<T>(objects: seq<T>, maxBackups: int): (r: seq<T>)
    ensures objects == SelectForDeletion(objects, maxBackups) + r
  {
    objects[|SelectForDeletion(objects, maxBackups)|..]
  }

  /** With retention enabled, the newest `min(n, maxBackups)` objects survive,
      the last `maxBackups` listing positions are never selected, and with it
      disabled everything survives. */
  lemma NewestSurvive<T>(objects: seq<T>, maxBackups: int)
    ensures maxBackups > 0 ==> |Kept(objects, maxBackups)| == Min(|objects|, maxBackups)
    ensures maxBackups > 0 ==> |SelectForDeletion(objects, maxBackups)| <= |objects| - Min(|objects|, maxBackups)
    ensures maxBackups <= 0 ==> Kept(objects, maxBackups) == objects
  {
  }

  /** Pruning what was already pruned deletes nothing. */
  lemma PruneIdempotent<T>(objects: seq<T>, maxBackups: int)
    ensures SelectForDeletion(Kept(objects, maxBackups), maxBackups) == []
  {
  }

  /** Two runs over a bucket that starts with the `n` listed backups, where
      every delete succeeds and nothing but the first run's archive is
      added in between: after the second run's pruning `min(n + 1,
      maxBackups)` backups remain with retention enabled, and all `n + 1`
      with it disabled. */
  lemma RetentionConverges<T>(objects: seq<T>, maxBackups: int, newest: T)
    ensures |Kept(Kept(objects, maxBackups) + [newest], maxBackups)|
      == if maxBackups > 0 then Min(|objects| + 1, maxBackups) else |objects| + 1
  {
    NewestSurvive(objects, maxBackups);
    NewestSurvive(Kept(objects, maxBackups) + [newest], maxBackups);
  }
}

=== FILE: runfacts.dfy ===
/** Properties of a whole backup run that relate its steps to each other. */
module RunFacts {
  import opened Optional
  import opened ResultLog
  import opened Settings
  import opened Retention
  import opened Notifier
  import opened Backup

  /** The input checks run in a fixed order (endpoint, access key, secret,
      bucket, folder, then the folder's existence); the first one that fails
      is the only message of the run, which then ends with code 1. */
  lemma ValidationOrder(c: Config, env: Env)
    ensures Blank(c.endpoint) ==>
      Run(c, env).log == [Message(Info, "Please specify an endpoint: --endpoint=...", env.clock(0))]
    ensures !Blank(c.endpoint) && Blank(c.accessKeyID) ==>
      Run(c, env).log == [Message(Info, "Please specify a access-key-id: --access-key-id=...", env.clock(0))]
    ensures !Blank(c.endpoint) && !Blank(c.accessKeyID) && Blank(c.secretAccessKey) ==>
      Run(c, env).log == [Message(Info, "Please specify a secret-access-key: --secret-access-key=...", env.clock(0))]
    ensures !Blank(c.endpoint) && !Blank(c.accessKeyID) && !Blank(c.secretAccessKey) && Blank(c.bucketName) ==>
      Run(c, env).log == [Message(Info, "Please specify a bucket-name: --bucket-name=...", env.clock(0))]
    ensures (&& !Blank(c.endpoint) && !Blank(c.accessKeyID) && !Blank(c.secretAccessKey)
             && !Blank(c.bucketName) && Blank(c.backupFolder)) ==>
      Run(c, env).log == [Message(Info, "Please specify a backup-folder: --backup-folder=...", env.clock(0))]
    ensures (&& !Blank(c.endpoint) && !Blank(c.accessKeyID) && !Blank(c.secretAccessKey)
             && !Blank(c.bucketName) && !Blank(c.backupFolder) && env.folder == NotExist) ==>
      Run(c, env).log == [Message(Error, "The folder " + c.backupFolder + " does not exist!", env.clock(0))]
    ensures !Validated(c, env) ==>
      Run(c, env).ending == Exited(1) && !Run(c, env).emailed && Run(c, env).calls == []
  {
  }

  /** The objects a run deletes are exactly the selected ones, in listing
      order: none unless the run gets as far as listing; none when retention
      is off or the listing holds at most `maxBackups` objects; otherwise the
      first `n - maxBackups` of the `n` listed objects. */
  lemma DeletesOldestExcess(c: Config, env: Env)
    ensures !ReachesListing(c, env) ==> Removals(Run(c, env).calls) == []
    ensures ReachesListing(c, env) ==>
      Removals(Run(c, env).calls) == Keys(SelectForDeletion(Objects(env.listing), c.maxBackups))
    ensures c.maxBackups <= 0 || |Objects(env.listing)| <= c.maxBackups ==> Removals(Run(c, env).calls) == []
    ensures ReachesListing(c, env) && c.maxBackups > 0 && |Objects(env.listing)| > c.maxBackups ==>
      Removals(Run(c, env).calls) == Keys(Objects(env.listing)[..|Objects(env.listing)| - c.maxBackups])
    ensures RemovesOnlyFrom(c.bucketName, Run(c, env).calls)
  {
    RunRemovals(c, env);
    SelectedKeys(Removals(Run(c, env).calls), Objects(env.listing), c.maxBackups, ReachesListing(c, env));
  }

  /** The keys removed when a run reaching listing (`reaches`) deletes the
      selected objects, case by case. */
  lemma SelectedKeys(removed: seq<string>, objects: seq<ObjectInfo>, maxBackups: int, reaches: bool)
    requires removed == if reaches then Keys(SelectForDeletion(objects, maxBackups)) else []
    ensures !reaches ==> removed == []
    ensures reaches ==> removed == Keys(SelectForDeletion(objects, maxBackups))
    ensures maxBackups <= 0 || |objects| <= maxBackups ==> removed == []
    ensures reaches && maxBackups > 0 && |objects| > maxBackups ==> removed == Keys(objects[..|objects| - maxBackups])
  {
    if maxBackups <= 0 || |objects| <= maxBackups {
      assert Keys(SelectForDeletion(objects, maxBackups)) == [];
    }
  }

  /** The objects a run deletes, in terms of the run's stages. */
  lemma RunRemovals(c: Config, env: Env)
    ensures Removals(Run(c, env).calls) == if ReachesListing(c, env) then Keys(Doomed(c, env)) else []
    ensures RemovesOnlyFrom(c.bucketName, Run(c, env).calls)
  {
    match Start(c, env)
    case Stop(report) =>
      assert Run(c, env) == report;
      PreparatoryNoRemovals(report.calls);
    case Continue(p) =>
      StageRemovals(c, env, p);
      StageBucket(c, env, p);
  }

  /** The stages after the start delete exactly the selected objects. */
  lemma StageRemovals(c: Config, env: Env, p: Progress)
    requires forall k :: 0 <= k < |p.calls| ==> Preparatory(p.calls[k])
    ensures Removals(ArchiveAndUpload(c, env, ListAndPrune(c, env, p)).calls) == Keys(Doomed(c, env))
  {
    PreparatoryNoRemovals(p.calls);
    PruneRemovals(c, env, p);
    ArchiveKeepsRemovals(c, env, ListAndPrune(c, env, p));
  }

  /** The stages after the start delete from the configured bucket only. */
  lemma StageBucket(c: Config, env: Env, p: Progress)
    requires forall k :: 0 <= k < |p.calls| ==> Preparatory(p.calls[k])
    ensures RemovesOnlyFrom(c.bucketName, ArchiveAndUpload(c, env, ListAndPrune(c, env, p)).calls)
  {
    assert RemovesOnlyFrom(c.bucketName, p.calls);
    PruneBucket(c, env, p);
    ArchiveKeepsRemovals(c, env, ListAndPrune(c, env, p));
  }

  /** A run that gets as far as listing is its three later stages applied
      in turn. */
  lemma RunAfterListing(c: Config, env: Env)
    requires ReachesListing(c, env)
    ensures Start(c, env).Continue?
    ensures Run(c, env) == ArchiveAndUpload(c, env, ListAndPrune(c, env, Start(c, env).progress))
  {
  }

  /** The listing and pruning messages, laid out in `log` from position
      `base` on: one `error` message per failed listing entry, in listing
      order, then one message per selected object, an `error` carrying the
      failure exactly when that delete failed. */
  predicate PruneMessagesAt(c: Config, env: Env, base: int, log: Log) {
    var errors := ListingFailures(env);
    var doomed := Doomed(c, env);
    && 0 <= base
    && |log| > base + |errors| + |doomed|
    && (forall j :: 0 <= j < |errors| ==> log[base + j] == Message(Error, errors[j], env.clock(base + j)))
    && (forall j :: 0 <= j < |doomed| ==>
          log[base + |errors| + j] == DeleteMessage(doomed[j].key, env.removeErr(j), env.clock(base + |errors| + j)))
  }

  /** `ListAndPruneMessages`, carried over to any longer log that extends
      the pruned progress. */
  lemma StageMessages(c: Config, env: Env, p: Progress, base: nat, log: Log)
    requires |p.log| == base
    requires |log| > |ListAndPrune(c, env, p).log| && log[..|ListAndPrune(c, env, p).log|] == ListAndPrune(c, env, p).log
    ensures PruneMessagesAt(c, env, base, log)
  {
    var errors := ListingFailures(env);
    var doomed := Doomed(c, env);
    var q := ListAndPrune(c, env, p);
    forall j | 0 <= j < |errors|
      ensures log[base + j] == Message(Error, errors[j], env.clock(base + j))
    {
      assert log[base + j] == q.log[base + j];
      ListingMessageAt(c, env, p, j);
    }
    forall j | 0 <= j < |doomed|
      ensures log[base + |errors| + j] == DeleteMessage(doomed[j].key, env.removeErr(j), env.clock(base + |errors| + j))
    {
      assert log[base + |errors| + j] == q.log[base + |errors| + j];
      DeleteMessageAt(c, env, p, j);
    }
  }

  /** The log of a run that gets as far as listing holds, right after the
      start-up messages (two, or three when the bucket already existed), the
      listing errors and then the delete outcomes, and these messages stay
      in the final log. */
  lemma ListingAndPruningMessages(c: Config, env: Env)
    requires ReachesListing(c, env)
    ensures PruneMessagesAt(c, env, if env.makeBucketErr.None? then 2 else 3, Run(c, env).log)
  {
    var p := Start(c, env).progress;
    var q := ListAndPrune(c, env, p);
    var log := Run(c, env).log;
    var base := if env.makeBucketErr.None? then 2 else 3;
    assert |p.log| == base && |log| > |q.log| && log[..|q.log|] == q.log by {
      RunAfterListing(c, env);
      assert Start(c, env) == Connect(c, env);
    }
    StageMessages(c, env, p, base, log);
  }

  /** Every archive and every upload among `calls` uses the path
      `/tmp/<name>` and the key `<name>`, where `<name>` is the prefix, the
      formatted time and ".zip"; the archive holds the backup folder and the
      upload is sent to the configured bucket as "application/zip". */
  predicate NamesArchive(c: Config, env: Env, calls: seq<Call>) {
    forall k :: 0 <= k < |calls| ==>
      && (calls[k].PutObject? ==>
            calls[k] == PutObject(c.bucketName, c.backupPrefix + env.archiveTime + ".zip",
                                  "/tmp/" + c.backupPrefix + env.archiveTime + ".zip", "application/zip"))
      && (calls[k].MakeZip? ==> calls[k] == MakeZip("/tmp/" + c.backupPrefix + env.archiveTime + ".zip", c.backupFolder))
  }

  /** Some call uploads an object. */
  predicate Uploads(calls: seq<Call>) {
    exists k :: 0 <= k < |calls| && calls[k].PutObject?
  }

  /** Calls that neither archive nor upload, followed by archive-step
      calls: every archive and upload names the archive, and an upload
      happens exactly when the second part holds one. */
  lemma NamesArchiveAppend(c: Config, env: Env, a: seq<Call>, b: seq<Call>)
    requires forall k :: 0 <= k < |a| ==> !a[k].PutObject? && !a[k].MakeZip?
    requires forall k :: 0 <= k < |b| ==> ArchiveCall(c, env, b[k])
    ensures NamesArchive(c, env, a + b)
    ensures Uploads(a + b) <==> Uploads(b)
  {
    assert "/tmp/" + c.backupPrefix + env.archiveTime + ".zip" == ArchivePath(c, env);
    forall k | 0 <= k < |a + b|
      ensures (a + b)[k].PutObject? || (a + b)[k].MakeZip? ==> k >= |a| && ArchiveCall(c, env, b[k - |a|])
    {
      if k >= |a| {
        assert (a + b)[k] == b[k - |a|];
      }
    }
    if Uploads(b) {
      var k :| 0 <= k < |b| && b[k].PutObject?;
      assert (a + b)[|a| + k] == b[k];
    }
  }

  /** The calls of the stages after the start, on top of preparatory calls. */
  lemma StageCalls(c: Config, env: Env, p: Progress)
    requires forall k :: 0 <= k < |p.calls| ==> Preparatory(p.calls[k])
    ensures NamesArchive(c, env, ArchiveAndUpload(c, env, ListAndPrune(c, env, p)).calls)
    ensures Uploads(ArchiveAndUpload(c, env, ListAndPrune(c, env, p)).calls) <==> env.zipErr.None?
  {
    var q := ListAndPrune(c, env, p);
    ListingNeitherArchives(c, env, p);
    var tail := ArchiveTail(c, env, q);
    NamesArchiveAppend(c, env, q.calls, tail);
  }

  /** Preparatory calls, the listing and the deletes neither archive nor
      upload. */
  lemma ListingNeitherArchives(c: Config, env: Env, p: Progress)
    requires forall k :: 0 <= k < |p.calls| ==> Preparatory(p.calls[k])
    ensures forall k :: 0 <= k < |ListAndPrune(c, env, p).calls| ==>
      !ListAndPrune(c, env, p).calls[k].PutObject? && !ListAndPrune(c, env, p).calls[k].MakeZip?
  {
    var q := ListAndPrune(c, env, p);
    forall k | 0 <= k < |q.calls|
      ensures !q.calls[k].PutObject? && !q.calls[k].MakeZip?
    {
      if k < |p.calls| {
        assert q.calls[k] == q.calls[..|p.calls|][k];
      }
    }
  }

  /** The calls `ArchiveAndUpload` adds: archive-step calls only, with an
      upload among them exactly when the zip succeeds. */
  lemma ArchiveTail(c: Config, env: Env, q: Progress) returns (tail: seq<Call>)
    ensures ArchiveAndUpload(c, env, q).calls == q.calls + tail
    ensures forall k :: 0 <= k < |tail| ==> ArchiveCall(c, env, tail[k])
    ensures Uploads(tail) <==> env.zipErr.None?
  {
    var r := ArchiveAndUpload(c, env, q);
    tail := r.calls[|q.calls|..];
    assert r.calls == q.calls + tail;
    forall k | 0 <= k < |tail|
      ensures ArchiveCall(c, env, tail[k])
    {
      assert tail[k] == r.calls[|q.calls| + k];
    }
    if env.zipErr.None? {
      assert tail[1] == r.calls[|q.calls| + 1];
    } else {
      forall k | 0 <= k < |tail| ensures !tail[k].PutObject? {
        assert tail[k] == r.calls[|q.calls| + k];
      }
    }
  }

  /** The archive is built at `/tmp/<name>` and uploaded under `<name>`;
      the upload happens exactly when the run gets past the bucket step and
      the archive was built. */
  lemma UploadUsesArchiveName(c: Config, env: Env)
    ensures NamesArchive(c, env, Run(c, env).calls)
    ensures Uploads(Run(c, env).calls) <==> ReachesListing(c, env) && env.zipErr.None?
  {
    match Start(c, env)
    case Stop(report) =>
      assert Run(c, env) == report;
      assert forall k :: 0 <= k < |report.calls| ==> Preparatory(report.calls[k]);
    case Continue(p) =>
      StageCalls(c, env, p);
  }

  /** Listing and pruning make the same calls and record as many messages
      whatever the deletes answer. */
  lemma PruneIgnoresOutcomes(c: Config, env: Env, removeErr: nat -> Option<string>, p: Progress)
    ensures ListAndPrune(c, env, p).calls == ListAndPrune(c, env.(removeErr := removeErr), p).calls
    ensures |ListAndPrune(c, env, p).log| == |ListAndPrune(c, env.(removeErr := removeErr), p).log|
  {
    var env' := env.(removeErr := removeErr);
    var doomed := Doomed(c, env);
    assert Doomed(c, env') == doomed;
    var base := |p.log| + |ListingFailures(env)|;
    var pruned := Deletes(c, env, base);
    var pruned' := Deletes(c, env', base);
    assert forall j :: 0 <= j < |doomed| ==> pruned.calls[j] == pruned'.calls[j];
    assert pruned.calls == pruned'.calls;
  }

  /** The last stages make the same calls, record as many messages and end
      the same way whatever the earlier messages say and whatever the
      deletes answered. */
  lemma ArchiveIgnoresLog(c: Config, env: Env, removeErr: nat -> Option<string>, p: Progress, p': Progress)
    requires p.calls == p'.calls && |p.log| == |p'.log|
    ensures ArchiveAndUpload(c, env, p).ending == ArchiveAndUpload(c, env.(removeErr := removeErr), p').ending
    ensures ArchiveAndUpload(c, env, p).calls == ArchiveAndUpload(c, env.(removeErr := removeErr), p').calls
    ensures |ArchiveAndUpload(c, env, p).log| == |ArchiveAndUpload(c, env.(removeErr := removeErr), p').log|
  {
  }

  /** The outcome of a delete never changes how the run ends nor which
      external calls it makes. */
  lemma DeleteOutcomesDoNotMatter(c: Config, env: Env, removeErr: nat -> Option<string>)
    ensures Run(c, env).ending == Run(c, env.(removeErr := removeErr)).ending
    ensures Run(c, env).calls == Run(c, env.(removeErr := removeErr)).calls
    ensures |Run(c, env).log| == |Run(c, env.(removeErr := removeErr)).log|
  {
    var env' := env.(removeErr := removeErr);
    assert Start(c, env') == Start(c, env);
    if Start(c, env).Continue? {
      var p := Start(c, env).progress;
      PruneIgnoresOutcomes(c, env, removeErr, p);
      ArchiveIgnoresLog(c, env, removeErr, ListAndPrune(c, env, p), ListAndPrune(c, env', p));
    }
  }

  /** The log ends with an `error` message carrying `text`, stamped with the
      time of its position. */
  predicate EndsWithError(log: Log, text: string, clock: nat -> string) {
    |log| > 0 && log[|log| - 1] == Message(Error, text, clock(|log| - 1))
  }

  /** A fatal step after the input checks records its own error text as the
      last message, hands the log to the notifier and exits 1: client
      creation, the existence check that follows a failed bucket creation
      (its error, not the creation's), the zip, the upload and the removal
      of the local archive. */
  lemma FatalStepRecordsItsError(c: Config, env: Env)
    requires Validated(c, env)
    ensures env.clientErr.Some? ==>
      && Run(c, env).ending == Exited(1) && Run(c, env).emailed
      && EndsWithError(Run(c, env).log, env.clientErr.value, env.clock)
    ensures env.clientErr.None? && env.makeBucketErr.Some? && env.bucketExistsErr.Some? ==>
      && Run(c, env).ending == Exited(1) && Run(c, env).emailed
      && EndsWithError(Run(c, env).log, env.bucketExistsErr.value, env.clock)
    ensures ReachesListing(c, env) && env.zipErr.Some? ==>
      && Run(c, env).ending == Exited(1) && Run(c, env).emailed
      && EndsWithError(Run(c, env).log, env.zipErr.value, env.clock)
    ensures ReachesListing(c, env) && env.zipErr.None? && env.upload.UploadFailed? ==>
      && Run(c, env).ending == Exited(1) && Run(c, env).emailed
      && EndsWithError(Run(c, env).log, env.upload.err, env.clock)
    ensures ReachesListing(c, env) && env.zipErr.None? && env.upload.Uploaded? && env.cleanupErr.Some? ==>
      && Run(c, env).ending == Exited(1) && Run(c, env).emailed
      && EndsWithError(Run(c, env).log, env.cleanupErr.value, env.clock)
  {
    assert Start(c, env) == Connect(c, env);
    if ReachesListing(c, env) {
      RunAfterListing(c, env);
      StageErrors(c, env, ListAndPrune(c, env, Start(c, env).progress));
    }
  }

  /** `FatalStepRecordsItsError` for the archive, upload and cleanup steps,
      from any progress. */
  lemma StageErrors(c: Config, env: Env, p: Progress)
    ensures var r := ArchiveAndUpload(c, env, p);
      && (env.zipErr.Some? ==> EndsWithError(r.log, env.zipErr.value, env.clock))
      && (env.zipErr.None? && env.upload.UploadFailed? ==> EndsWithError(r.log, env.upload.err, env.clock))
      && (env.zipErr.None? && env.upload.Uploaded? && env.cleanupErr.Some? ==>
            EndsWithError(r.log, env.cleanupErr.value, env.clock))
  {
  }

  /** When the upload succeeded but the local archive cannot be removed, the
      run still ends with code 1 after notifying, although the archive is in
      the bucket; the last two messages are the upload's success and the
      cleanup error. */
  lemma CleanupFailureIsFatal(c: Config, env: Env)
    requires ReachesListing(c, env) && env.zipErr.None? && env.upload.Uploaded? && env.cleanupErr.Some?
    ensures var r := Run(c, env);
      && r.ending == Exited(1) && r.emailed
      && PutObject(c.bucketName, ArchiveName(c, env), ArchivePath(c, env), "application/zip") in r.calls
      && |r.log| >= 2
      && r.log[|r.log| - 2].kind == Success
      && r.log[|r.log| - 1] == Message(Error, env.cleanupErr.value, env.clock(|r.log| - 1))
  {
    RunAfterListing(c, env);
    CleanupFailureStage(c, env, ListAndPrune(c, env, Start(c, env).progress));
  }

  /** `CleanupFailureIsFatal` for the archive stage on any progress. */
  lemma CleanupFailureStage(c: Config, env: Env, q: Progress)
    requires env.zipErr.None? && env.upload.Uploaded? && env.cleanupErr.Some?
    ensures var r := ArchiveAndUpload(c, env, q);
      && r.ending == Exited(1) && r.emailed
      && PutObject(c.bucketName, ArchiveName(c, env), ArchivePath(c, env), "application/zip") in r.calls
      && |r.log| >= 2
      && r.log[|r.log| - 2].kind == Success
      && r.log[|r.log| - 1] == Message(Error, env.cleanupErr.value, env.clock(|r.log| - 1))
  {
    var r := ArchiveAndUpload(c, env, q);
    assert r.calls[|q.calls| + 1] == PutObject(c.bucketName, ArchiveName(c, env), ArchivePath(c, env), "application/zip");
  }

  /** On a clean run the notifier is invoked once, with the full log, and
      the run exits 0; the last two messages record the upload and the
      removal of the local archive. */
  lemma SuccessfulRun(c: Config, env: Env)
    requires ReachesListing(c, env) && ArchiveSucceeds(env)
    ensures var r := Run(c, env);
      && r.ending == Exited(0) && r.emailed && r.mail == EmailFor(c, r.log, env.hostname)
      && |r.log| >= 2
      && r.log[|r.log| - 2].kind == Success && r.log[|r.log| - 1].kind == Success
  {
    var q := ListAndPrune(c, env, Start(c, env).progress);
    assert Run(c, env) == ArchiveAndUpload(c, env, q);
  }
}

=== FILE: scenarios.dfy ===
/** Concrete runs: one configuration and one set of outcomes, varied one
    field at a time, with what the run does in each case. */
module Scenarios {
  import opened Optional
  import opened GoStrings
  import opened ResultLog
  import opened Settings
  import opened Retention
  import opened Notifier
  import opened Backup
  import opened RunFacts

  const Stamp: string := "2024/01/02 03:04:05"

  /** Retention 2, mail on errors, a sender, a recipient and a relay. */
  const Cfg: Config := Defaults.(
    endpoint := "play.min.io", accessKeyID := "AK", secretAccessKey := "SK",
    bucketName := "mirror", backupFolder := "/srv/data", maxBackups := 2,
    smtpHostname := "mail.local", smtpFromEmail := "backup@local", notifyEmail := "ops@local",
    notifyError := true)

  function Obj(key: string): ObjectInfo {
    ObjectInfo(key, 10, Stamp)
  }

  /** Three earlier backups in the bucket, and every step succeeds. */
  function Good(): Env {
    Env(
      folder := Present, clientErr := None, makeBucketErr := None,
      bucketExists := false, bucketExistsErr := None,
      listing := [Listed(Obj("backup-1.zip")), Listed(Obj("backup-2.zip")), Listed(Obj("backup-3.zip"))],
      removeErr := (j: nat) => None, archiveTime := "2024-01-02.03-04-05",
      zipErr := None, upload := Uploaded(100), cleanupErr := None,
      hostname := Some("host"), clock := (i: nat) => Stamp)
  }

  lemma GoodPassesChecks()
    ensures ReachesListing(Cfg, Good())
  {
    assert !Blank(Cfg.endpoint) by { assert !IsSpace(Cfg.endpoint[0]); }
    assert !Blank(Cfg.accessKeyID) by { assert !IsSpace(Cfg.accessKeyID[0]); }
    assert !Blank(Cfg.secretAccessKey) by { assert !IsSpace(Cfg.secretAccessKey[0]); }
    assert !Blank(Cfg.bucketName) by { assert !IsSpace(Cfg.bucketName[0]); }
    assert !Blank(Cfg.backupFolder) by { assert !IsSpace(Cfg.backupFolder[0]); }
  }

  /** With three backups and a retention of two, the run deletes the oldest
      one only, and exits 0. */
  lemma OldestOfThreeDeleted()
    ensures Removals(Run(Cfg, Good()).calls) == ["backup-1.zip"]
    ensures Run(Cfg, Good()).ending == Exited(0)
  {
    GoodPassesChecks();
    ThreeObjects();
    DeletesOldestExcess(Cfg, Good());
    assert Keys([Obj("backup-1.zip")]) == ["backup-1.zip"];
  }

  lemma ThreeObjects()
    ensures Objects(Good().listing) == [Obj("backup-1.zip"), Obj("backup-2.zip"), Obj("backup-3.zip")]
  {
    var items := Good().listing;
    assert Objects(items[2..]) == [Obj("backup-3.zip")] by {
      assert items[2..][1..] == [];
    }
    assert items[1..][1..] == items[2..];
  }

  /** A failed delete is recorded and the run still exits 0. */
  lemma FailedDeleteStillSucceeds()
    ensures Run(Cfg, Good().(removeErr := (j: nat) => Some("Access Denied."))).ending == Exited(0)
  {
    GoodPassesChecks();
    DeleteOutcomesDoNotMatter(Cfg, Good(), (j: nat) => Some("Access Denied."));
  }

  /** A backup folder that does not exist: one `error` message, code 1, no
      external call and no mail. */
  lemma MissingFolderStops()
    ensures var r := Run(Cfg, Good().(folder := NotExist));
      && r.log == [Message(Error, "The folder /srv/data does not exist!", Stamp)]
      && r.ending == Exited(1) && r.calls == [] && !r.emailed
  {
    GoodPassesChecks();
    var env := Good().(folder := NotExist);
    ValidationOrder(Cfg, env);
    assert env.clock(0) == Stamp;
    assert "The folder " + Cfg.backupFolder + " does not exist!" == "The folder /srv/data does not exist!";
  }

  /** The upload succeeds but the local archive cannot be removed: the run
      notifies and exits 1 although the archive is in the bucket. */
  lemma CleanupFailureAfterUpload()
    ensures var r := Run(Cfg, Good().(cleanupErr := Some("permission denied")));
      && r.ending == Exited(1) && r.emailed && r.mail.Some?
      && PutObject("mirror", "backup-2024-01-02.03-04-05.zip", "/tmp/backup-2024-01-02.03-04-05.zip", "application/zip") in r.calls
  {
    var env := Good().(cleanupErr := Some("permission denied"));
    GoodPassesChecks();
    assert ReachesListing(Cfg, env);
    CleanupFailureIsFatal(Cfg, env);
    var r := Run(Cfg, env);
    assert HasKind(r.log, Error) by {
      assert r.log[|r.log| - 1].kind == Error;
    }
    assert ShouldSend(Cfg, r.log) by {
      assert Cfg.smtpHostname[0] == 'm' && Cfg.smtpFromEmail[0] == 'b' && Cfg.notifyEmail[0] == 'o';
    }
    GoodArchiveName(env);
  }

  /** The archive of these runs is named after the prefix and the time. */
  lemma GoodArchiveName(env: Env)
    requires env.archiveTime == Good().archiveTime
    ensures ArchiveName(Cfg, env) == "backup-2024-01-02.03-04-05.zip"
    ensures ArchivePath(Cfg, env) == "/tmp/backup-2024-01-02.03-04-05.zip"
  {
    var name := "backup-2024-01-02.03-04-05.zip";
    assert ArchiveName(Cfg, env) == name by {
      assert Cfg.backupPrefix == "backup-";
    }
    TmpPath(name);
  }

  /** The path of that archive; a lemma of its own because equalities of
      long string literals are costly to prove next to other facts. */
  lemma TmpPath(name: string)
    requires name == "backup-2024-01-02.03-04-05.zip"
    ensures "/tmp/" + name == "/tmp/backup-2024-01-02.03-04-05.zip"
  {
  }

  /** Bucket creation fails and the bucket does not exist, without an error
      from the existence check: the run panics and sends nothing. */
  lemma MissingBucketPanics()
    ensures var r := Run(Cfg, Good().(makeBucketErr := Some("Access Denied.")));
      r.ending == Panicked && !r.emailed && r.mail == None
  {
    GoodPassesChecks();
  }
}

=== FILE: settings.dfy ===
/** The run's configuration (`configuration` in main.go), as the finished
    value produced by the file and flag layers. */
module Settings {

  datatype Config = Config(
    endpoint: string,
    accessKeyID: string,
    secretAccessKey: string,
    bucketName: string,
    useSSL: bool,
    location: string,
    maxBackups: int,
    backupPrefix: string,
    backupFolder: string,
    smtpHostname: string,
    smtpPort: int,
    smtpUsername: string,
    smtpPassword: string,
    smtpFromEmail: string,
    notifySuccess: bool,
    notifyError: bool,
    notifyEmail: string)

  /** `newConfiguration`: the values in force when neither the configuration
      file nor a flag sets a field. */
  const Defaults: Config := Config(
    endpoint := "", accessKeyID := "", secretAccessKey := "", bucketName := "",
    useSSL := true, location := "us-east-1",
    maxBackups := 5, backupPrefix := "backup-", backupFolder := "",
    smtpHostname := "", smtpPort := 25, smtpUsername := "", smtpPassword := "", smtpFromEmail := "",
    notifySuccess := false, notifyError := false, notifyEmail := "")
}
